=== FILE: README.md ===
# A model of the avicii music player core

The bot plays music in Discord voice channels. Each guild has one player with a
queue of requested tracks and a transport: play, pause, skip, back, stop. Tracks
come from Spotify links, YouTube links or a free-text search. A text search shows
three buttons, and a track is queued only after the user picks one of them. A
shared track cache sits in front of the search and download services. Each cache
entry carries a "last accessed" stamp, so the least recently used one can be
evicted.

This project models that core as pure functions over immutable data and proves
properties about it. The modules are:

- `Model` (model.dfy): the records, i.e. songs, users, queue entries, search hits and cache kinds.
- `Player` (player.dfy): the per-guild player as a state machine.
  - Each transport operation takes the state, the clock `now` in milliseconds and its inputs.
  - It returns the new state and the reply the user sees.
- `TrackCache` (cache.dfy): the cache as a map from namespace name to a map of keys.
  - It covers `get`, `add`, the least-recently-used scan with its eviction, and the store `init` creates.
- `Links` (links.dfy): how a pasted link's id is read.
  - It uses the same `includes`/`split` steps the bot uses.
  - It carries JavaScript's `undefined`-as-a-key behaviour.
- `Admission` (admission.dfy): how a request becomes queue entries.
  - The cache cascade in front of the services, with the services as a record of functions (`Providers`).
  - The Spotify and YouTube link handlers, and `play` with its guards and replies.
  - `addChoice` for a picked search hit.
- `Embeds` (embeds.dfy): the text of the queue card (a window around the current entry) and of the search-choice card.
- `Util` (util.dfy): `prettyTime` (seconds to a clock text) and `progressBar` (a row of glyphs with one marker).
- `Text` and `Wrappers` (text.dfy, wrappers.dfy): string operations with JavaScript's meaning and an `Option` type.
  - The string operations are `indexOf`, `includes`, the pieces of `split`, `trimEnd` and `String(n)`.

The code's own behaviour is kept wherever it is surprising:

- `_playSong` sets `playing` without clearing `paused`. Skipping or going back while paused leaves both flags set.
- Teardown keeps `paused` and `takeRequests`.
- Pausing with no start time on record folds `now - (-now)` into the elapsed time.
- `addChoice` never removes the prompt it answers.
- A Spotify link that names no playlist, album or track throws inside `play`.
  - The request then stays marked as queuing.
  - Every teardown is refused until the next link request or button pick finishes, since both clear the mark.

Three behaviours a user might not expect. The model follows the code in each case:

- **A track admitted just after the last one ends.** One might expect the new track to play in the same session. In the code, the index still points at the finished entry, and that entry is what starts again (`Player.AdmitAfterLastTrackReplaysIt`). When the pause ends, the teardown still runs unless an admission holds the queuing mark at that moment. It empties the queue, the new track included, and stops the restarted entry (`Player.AdmitDuringGraceIsDropped`).
- **Teardown and `paused`.** Teardown does not return the player to idle. It keeps `paused`, so the next admitted track is queued but never started (`Player.StopWhilePausedBlocksNextTrack`).
- **Answered prompts.** Answering a prompt does not remove it, so a second press queues the song again (`Admission.RepeatedClickQueuesTwice`).

## Model

| member | source | states |
|---|---|---|
| Player.Initial | src/bot/music/player.ts:41-61 | A fresh player has an empty queue, nothing playing, paused or queuing, takes requests, and satisfies the state invariant. |
| Player.InsertAt | src/bot/music/player.ts:155-159 | Splicing `e` in at `p` puts `e` at `p`, keeps the entries before it and shifts the rest by one, and adds exactly one `e` to the queue's contents; at the end it is a push. |
| Player.Admit | src/bot/music/player.ts:139-166 | Admission inserts right after the current entry for "play next" while playing, else appends; the index never moves; playback (re)starts at `now` only when neither playing nor paused, otherwise the clock is untouched; the index invariant is preserved. |
| Player.Teardown | src/bot/music/player.ts:480-510 | Refused while an admission holds the queuing latch; otherwise queue and prompts are emptied, index 0, player and connection gone, clock and timestamps reset, while `paused`, `takeRequests` and the play stamp survive; the state invariant is preserved. |
| Player.Disconnect | src/bot/music/player.ts:461-472 | A real disconnect leaves no connection and an empty queue, unless an admission holds the latch. |
| Player.OnIdle | src/bot/music/player.ts:551-560 | When an entry follows, the index advances by exactly one and that entry starts at `now` with the session kept; otherwise `playing` is cleared and the player torn down; the state invariant is preserved. |
| Player.Back | src/bot/music/player.ts:760-785 | Within 10 s of the last play it steps back by one and restarts there, refusing at the head with no change; later it restarts the current entry in place; it answers "nothing playing" without a player; the state invariant is preserved. |
| Player.Clear | src/bot/music/player.ts:793-812 | Refused when no entry follows the current one; otherwise the queue becomes its prefix up to and including the current entry, the index unchanged; the state invariant is preserved. |
| Player.Upcoming | src/bot/music/player.ts:890 | The entries after the current one, as `slice` gives them: the suffix after the index, empty past the end. |
| Player.Shuffle | src/bot/music/player.ts:883-904 | Refused with fewer than three entries after the current one; otherwise the prefix up to the current entry is kept, the length is kept and the suffix is a permutation of the old suffix; nothing but the queue changes. |
| Player.Skip | src/bot/music/player.ts:912-932 | With a following entry the index advances by exactly one and it starts at `now`; otherwise the player is torn down and the reply still says it stopped; the state invariant is preserved. |
| Player.Stop | src/bot/music/player.ts:940-951 | Without a connection it answers "nothing playing" and changes nothing; with one it tears down; the state invariant is preserved. |
| Player.Toggle | src/bot/music/player.ts:960-994 | Flips `paused` and sets `playing` to its negation; resuming stamps the start and clears the pause stamp; pausing stamps the pause and adds `now` minus the start (read as `-now` when absent) to `elapsed`; nothing else changes; refused without a player. |
| Player.ProcessShutdown | src/bot/music/player.ts:672-675 | Requests are closed and the shutdown time is `now`; nothing else changes. |
| Player.SkipWhilePausedKeepsPaused | src/bot/music/player.ts:590-594 | Skipping to a following entry while paused leaves `playing` and `paused` both set. |
| Player.PauseWithoutStartDoublesClock | src/bot/music/player.ts:985-986 | Pausing with no start on record adds twice the clock reading to `elapsed`. |
| Player.StopIsIdempotent | src/bot/music/player.ts:940-951 | A second `stop` after a first one, with no admission in progress, is refused and changes nothing. |
| Player.StopDuringAdmissionIsNoOp | src/bot/music/player.ts:481 | While an admission holds the latch, `stop` replies "Stopped playing!" and changes nothing. |
| Player.StopWhilePausedBlocksNextTrack | src/bot/music/player.ts:481-499 | After pausing and stopping, the next admitted track is queued alone on a new connection but never starts, since `paused` survived teardown. |
| Player.AdmitAfterLastTrackReplaysIt | src/bot/music/player.ts:551-563 | A track admitted after the last one ended, before teardown, is appended while the finished entry is the one restarted. |
| Player.AdmitDuringGraceIsDropped | src/bot/music/player.ts:551-558 | Once the grace pause ends with no admission holding the queuing mark, the teardown empties the queue, the track admitted during the pause included, and leaves nothing playing and no player. |
| Player.PlaySong | src/bot/music/player.ts:590-594 | Playing the current entry starts it at `now` with the clock reset; queue, index, the pause flag and the session are unchanged. |
| Player.Connect | src/bot/music/player.ts:449-458 | Connecting gives a player and a connection and changes nothing else: queue, index, flags, clock and prompts; the state invariant is kept. |
| TrackCache.Touch | src/bot/music/cache.ts:94-98 | Refreshing a value keeps its shape and songs and sets every stamp, on the entry or on each array element, to `now`. |
| TrackCache.Get | src/bot/music/cache.ts:111-124 | Throws exactly when the kind's namespace is missing; a miss returns nothing and changes nothing; a hit returns the stored songs with every stamp set to `now` and changes no other key or namespace. |
| TrackCache.Add | src/bot/music/cache.ts:89-102 | Throws exactly when the namespace is missing; otherwise only `key` of that namespace changes, it holds the given songs stamped `now`, and no key is removed. |
| TrackCache.AddThenGet | src/bot/music/cache.ts:89-124 | Reading a key right after writing it hits, returns the written songs, and stamps them with the read time. |
| TrackCache.AccessKeepsWellFormed | src/bot/music/cache.ts:100-112 | Reads and writes on a store with all three namespaces succeed and keep all three. |
| TrackCache.MinStamp | src/bot/music/cache.ts:59 | The oldest stamp of a non-empty array is one of its stamps and at most all of them. |
| TrackCache.EffectiveAge | src/bot/music/cache.ts:58-60 | A value's age is its entry's stamp or its array's oldest stamp, and `Infinity` exactly for an empty array. |
| TrackCache.Scan | src/bot/music/cache.ts:52-66 | The selection loop returns the key, present in the namespace, that is strictly older than every key enumerated before it and not beaten by any after it; none when every age is `Infinity`. |
| TrackCache.RemoveLRU | src/bot/music/cache.ts:51-72 | Deletes exactly the selected key and leaves every other key and namespace alone; deletes nothing when nothing is selected, when the selection is the empty key, or when the namespace is missing. |
| TrackCache.ScanResultUnique | src/bot/music/cache.ts:56-66 | One enumeration order admits only one selection. |
| TrackCache.ScanPicksGlobalMinimum | src/bot/music/cache.ts:56-66 | When every key is enumerated, the selected key has the smallest age in the namespace; with no selection, every value is an empty array. |
| TrackCache.TieNeverGoesToLater | src/bot/music/cache.ts:56-66 | For any enumeration listing each key once, two keys of equal finite age at positions `i < j` leave a selection, and it is never the key at `j`, because the comparison is strict. |
| TrackCache.TieGoesToFirst | src/bot/music/cache.ts:62 | Of two keys with equal age, the one enumerated first is selected, because the comparison is strict. |
| TrackCache.InitAsWritten | src/bot/music/cache.ts:21-44 | The store `init` writes has three namespaces, none of them named by a cache kind. |
| TrackCache.FreshStoreThrows | src/bot/music/cache.ts:111-112 | On the store `init` writes, every `get` and every `add` throws. |
| TrackCache.Init | src/bot/music/model.ts:10-21 | The intended fresh store has one empty namespace for each cache kind. |
| TrackCache.InitLookupsMiss | src/bot/music/cache.ts:111-123 | On the intended fresh store every lookup is a miss that changes nothing. |
| Links.PropertyKey | src/bot/music/player.ts:272-273 | A missing id is used as a property key as the text "undefined"; a present one as itself. |
| Links.IdAfter | src/bot/music/player.ts:179-181 | The guarded split yields a value exactly when the separator occurs in the link. |
| Links.ParseSpotify | src/bot/music/player.ts:179-196 | A non-empty playlist id wins, then a non-empty album id, then the text after `track/` cut at `?si=` (the id looked up and fetched); a link with none of the three is the throwing case. |
| Links.ParseYoutube | src/bot/music/player.ts:364-370 | A non-empty `&list=` id makes a playlist with that id; otherwise the video key is the second piece of splitting at `?v=`, present exactly when `?v=` occurs. |
| Links.WatchUrl | src/bot/music/player.ts:411 | The watch link is a fixed 32-character prefix followed by the id. |
| Links.SpotifyPlaylistRoundTrip | src/bot/music/player.ts:179-183 | A share link built around a playlist id yields that id. |
| Links.SpotifyAlbumRoundTrip | src/bot/music/player.ts:184-193 | A share link built around an album id, with no playlist part, yields that id. |
| Links.SpotifyTrackRoundTrip | src/bot/music/player.ts:189-190 | A share link built around a track id, with no playlist or album part, yields that id, even an empty one. |
| Links.YoutubePlaylistRoundTrip | src/bot/music/player.ts:364-366 | A link built around a non-empty list id yields that id as a playlist. |
| Links.WatchUrlRoundTrip | src/bot/music/player.ts:364-369 | A watch link the bot builds names the same video when read back as a link. |
| Admission.Read | src/bot/music/cache.ts:111-124 | On a store holding all three namespaces, a read never throws, and it hits exactly on a stored value. |
| Admission.Write | src/bot/music/cache.ts:89-102 | On such a store, a write stores the song as a single entry under the key and keeps all namespaces and keys. |
| Admission.FromVideo | src/bot/music/player.ts:369-398 | A stored single entry for the key is queued as it is; otherwise the downloader's answer for the link is queued and stored under the key; on failure nothing is queued. |
| Admission.StoreTrack | src/bot/music/player.ts:347-349 | A downloaded track ends up stored under its track id, its search text and its video key. |
| Admission.FromSearch | src/bot/music/player.ts:317-350 | The first search hit's video is looked up; on a miss the downloaded song is queued and stored under all three keys; a failed download writes no key. |
| Admission.FromQuery | src/bot/music/player.ts:307-351 | A cached search text wins, then a cached video of the first hit; otherwise the downloader decides; a Spotify-id hit never occurs here. |
| Admission.AddTrack | src/bot/music/player.ts:253-305 | A cached track id is queued directly; on a miss the outcome is exactly that of the query cascade (`FromQuery`) on the track's search text, after the refreshed read; a downloaded track is then stored under its id. |
| Admission.CachedTrackIgnoresProviders | src/bot/music/player.ts:258-262 | A stored track id is queued the same way whatever the services would answer. |
| Admission.FetchedTrackIsCached | src/bot/music/player.ts:288-304 | After a download, asking for the same track again is a cache hit on its id that queues the same song. |
| Admission.FailedTrackQueuesNothing | src/bot/music/player.ts:279-286 | When every lookup misses and the downloader fails, nothing is queued and no key is written. |
| Admission.EntriesFor | src/bot/music/player.ts:144-153 | The queue entries for a list of songs pair each song, in order, with the requesting user. |
| Admission.AppendsChain | src/bot/music/player.ts:211-219 | One admission at the end followed by a batch appends the admitted songs in order. |
| Admission.QueryBatch | src/bot/music/player.ts:206-243 | An album or playlist appends its admitted tracks after the old queue, at most one per listed track, leaving index and session alone. |
| Admission.VideoBatch | src/bot/music/player.ts:401-440 | A YouTube playlist appends its admitted videos after the old queue, at most one per listed video. |
| Admission.OneByUser | src/bot/music/player.ts:151 | A single entry requested by a user is all that the queue gained. |
| Admission.BatchGrows | src/bot/music/player.ts:436-440 | A batch grows the queue by exactly the count it returns, all requested by the user, keeping the old entries as a prefix. |
| Admission.SingleGrows | src/bot/music/player.ts:369-398 | A single admission grows the queue by the 1 or 0 the handler returns. |
| Admission.AddSpotify | src/bot/music/player.ts:175-197 | Throws exactly on a link that names no playlist, album or track; otherwise the queue grows by the returned count, all by the requester; at most one for a track, at most the list length for an album or playlist. |
| Admission.AddYoutube | src/bot/music/player.ts:360-441 | The queue grows by the returned count; a single video adds nothing exactly when its key is not cached and the download fails. |
| Admission.RestartAt | src/bot/music/player.ts:834 | The restart time shown is the shutdown time plus ten minutes, in whole seconds rounded down. |
| Admission.SearchChoices | src/bot/music/player.ts:520-543 | No hits is an error reply with nothing changed; otherwise the hits are shown and one prompt with the caller's channel and "next" option is added; the cache is never touched. |
| Admission.GrowsChain | src/bot/music/player.ts:855-862 | Two handlers in a row grow the queue by the sum of their counts. |
| Admission.RunHandlers | src/bot/music/player.ts:855-862 | Throws exactly on a malformed Spotify link; the queue grows by the total queued; a link naming both sites reports only the YouTube count; a link naming neither adds nothing. |
| Admission.Prepare | src/bot/music/player.ts:848-853 | The request is marked queuing and a connection is made when there is no player; the state invariant is kept. |
| Admission.Release | src/bot/music/player.ts:864-874 | The queuing mark is cleared; an empty result for a Spotify link is reported as a private playlist, anything else as the count. |
| Admission.ReleaseGrows | src/bot/music/player.ts:864 | Clearing the queuing mark keeps what the handlers queued. |
| Admission.AddLink | src/bot/music/player.ts:848-874 | A link leaves a player; the reply is stuck on "adding" exactly for a malformed Spotify link, which also leaves the latch set and the queue as it was; otherwise the latch is cleared and the reported count is what the queue grew by. |
| Admission.Play | src/bot/music/player.ts:821-875 | The guards run in order: voice channel, open requests (with the restart time), a non-empty option; text naming neither site is a search, anything else a link; only a closed player answers with the restart time. |
| Admission.AddedCountRoundTrip | src/bot/music/player.ts:872-874 | The number in the "Added …" reply reads back as the count the handlers reported. |
| Admission.AddedPlural | src/bot/music/player.ts:873 | The reply says "songs" exactly when more than one was added. |
| Admission.MalformedSpotifyLinkSticks | src/bot/music/player.ts:848-864 | A Spotify link without a playlist, album or track leaves the "adding" notice and the latch set; `stop` then reports success without stopping. |
| Admission.FindChoice | src/bot/music/player.ts:684-687 | The prompt found is the first one posted as the message; none when no prompt matches. |
| Admission.PickedVideo | src/bot/music/player.ts:697-720 | The picked video exists exactly when the button is known and its hit exists, and it is that hit's video id. |
| Admission.ButtonChoiceRoundTrip | src/bot/music/player.ts:699-709 | Each of the three button ids names its own hit, and no other text names one. |
| Admission.MissingHitAsksForUndefined | src/bot/music/player.ts:720 | A button without a hit asks the downloader about the video "undefined". |
| Admission.Pick | src/bot/music/player.ts:711-750 | The chosen song is queued with the prompt's "next" option when the downloader answers; on failure the queue is kept; the player exists and the latch is clear afterwards; prompts are never removed. |
| Admission.AddChoice | src/bot/music/player.ts:683-751 | An unknown message is an error with nothing changed; otherwise it connects if needed, and queues the picked song exactly when the downloader answers; the prompt list is unchanged. |
| Admission.RepeatedClickQueuesTwice | src/bot/music/player.ts:683-751 | Pressing the same button twice queues the same song twice, since the prompt stays open. |
| Embeds.Slice | src/bot/music/embed/embed.ts:94-111 | `slice` with bounds clamped to the length, empty when they cross. |
| Embeds.Titles | src/bot/music/embed/embed.ts:105-122 | The titles of the queue, in order. |
| Embeds.View | src/bot/music/embed/embed.ts:93-113 | At most two titles before the index and three after it, exactly the windows `queue[max(0,i-2)..i)` and `queue[i+1..i+4)`, with the hidden counts `max(0, i-|history|)` and `max(0, |queue|-1-(i+|upcoming|))`. |
| Embeds.ViewPartitionsQueue | src/bot/music/embed/embed.ts:94-113 | Hidden-before titles, history, the current title, upcoming and hidden-after titles partition the queue, so the current entry is never listed. |
| Embeds.HistoryEntries | src/bot/music/embed/embed.ts:98-108 | One line per history title, numbered downward to 1. |
| Embeds.NextEntries | src/bot/music/embed/embed.ts:118-122 | One line per upcoming title, numbered upward from 1. |
| Embeds.Describe | src/bot/music/embed/embed.ts:129-133 | The description is "Nothing in Queue" exactly when there is no history and nothing upcoming, and otherwise starts with the first section's header. |
| Embeds.DescribeCounts | src/bot/music/embed/embed.ts:97-127 | Each section has its header, one line per title and its "+ N other song(s)" note exactly when titles are hidden; the most recent history title is numbered 1 and the next upcoming title is numbered 1. |
| Embeds.HistoryLines | src/bot/music/embed/embed.ts:105-108 | The downward-counting loop appends exactly the numbered history lines. |
| Embeds.HistoryText | src/bot/music/embed/embed.ts:97-109 | The history section built as the loop builds it is the header, the note when titles are hidden, and the numbered history lines. |
| Embeds.NextText | src/bot/music/embed/embed.ts:115-127 | The upcoming section built as the loop builds it is the header, the numbered lines and the note when titles are hidden. |
| Embeds.QueueDescription | src/bot/music/embed/embed.ts:90-135 | The description the code assembles equals the one defined from the window. |
| Embeds.ChoicesText | src/bot/music/embed/embed.ts:146-157 | The choices text is the numbered blocks in input order with only trailing white space removed, empty when there are no hits. |
| Embeds.ChoicesDescription | src/bot/music/embed/embed.ts:146-157 | The text the counting loop builds, trimmed, equals the choices text. |
| Embeds.ChoicesTextDropsFinalBreak | src/bot/music/embed/embed.ts:149-157 | When the last title ends in a visible character, trimming removes exactly the final blank line. |
| Embeds.ButtonIds | src/bot/music/embed/embed.ts:159-163 | There are always exactly three distinct button ids, whatever the number of hits. |
| Util.PrettyTime | src/bot/music/util.ts:9-20 | The rendering always ends in a colon and a two-digit seconds field; from one hour on, the minutes field is two digits after a colon too. |
| Util.Clock | src/bot/music/util.ts:14-19 | Trimming the clock text leaves it unchanged, since it ends in a digit. |
| Util.PrettyTimeIsClock | src/bot/music/util.ts:10-18 | The rendering is the clock text of `s div 3600`, `(s mod 3600) div 60` and `s mod 60`, the last two below 60. |
| Util.ParseClockPrettyTime | src/bot/music/util.ts:9-20 | Reading the rendering back field by field gives the number of seconds. |
| Util.PrettyTimeInjective | src/bot/music/util.ts:9-20 | Different numbers of seconds are rendered differently. |
| Util.PrettyTimeZero | src/bot/music/util.ts:15-16 | Zero seconds renders as "00:00". |
| Util.PrettyTimeMinute | src/bot/music/util.ts:14-16 | 65 seconds renders as "1:05", with no padding on the minutes. |
| Util.PrettyTimeHour | src/bot/music/util.ts:14-16 | 3605 seconds renders as "1:00:05". |
| Util.RoundingUnique | src/bot/music/util.ts:37 | At most one integer is the half-up rounding of a fraction. |
| Util.Position | src/bot/music/util.ts:36-37 | The marker's place is the half-up rounding of `barLength * elapsed / duration`, and there is none for a zero duration. |
| Util.PositionIsRound | src/bot/music/util.ts:36-37 | Any integer that rounds the fraction is the marker's place. |
| Util.ProgressBar | src/bot/music/util.ts:30-45 | Exactly `barLength` glyphs, with the disc at the rounded position and nowhere else, so it appears at most once and not at all when the position is outside the bar. |
| Util.DefaultProgressBar | src/bot/music/util.ts:33 | With the default length the bar has twelve glyphs. |
| Util.GlyphText | src/bot/music/util.ts:35-41 | The disc is `<a:cd:` followed by the emoji id and `>`; a bar segment is the three characters U+00E2 U+2013 U+00AC the source's literal holds; only the disc starts with `<`. |
| Util.BarText | src/bot/music/util.ts:39-44 | The returned string holds a `<` exactly when the bar holds the disc; a bar of segments only is three characters per glyph; it is empty exactly for an empty bar. |
| Util.BarTextAppend | src/bot/music/util.ts:40-42 | The loop appends glyph texts one at a time, so the text of two joined bars is the two texts joined. |
| Text.NatToString | src/bot/music/player.ts:873 | A count is written as decimal digits with no leading zero. |
| Text.ParseNatToString | src/bot/music/player.ts:873 | Reading the decimal rendering back gives the number. |
| Text.IndexOf | src/bot/music/player.ts:179-189 | `indexOf` finds the first occurrence of the separator, and there is none before it. |
| Text.SplitSecond | src/bot/music/player.ts:179-189 | The second piece of `split` exists exactly when the separator occurs. |
| Text.SplitAtInserted | src/bot/music/player.ts:364-366 | Splitting a text at a separator placed in it, with none before, gives back the two parts. |
| Text.TrimEnd | src/bot/music/util.ts:19 | `trimEnd` keeps a prefix that does not end in white space and removes only white space. |
| Text.TrimEndDropsAppended | src/bot/music/embed/embed.ts:157 | Trimming white space appended to a text ending in a visible character gives that text back. |
| Model.EntryFor | src/bot/music/player.ts:144-153 | An entry records the song and the requester's name, and an empty image for a missing avatar. |

## Left out

- Discord itself is not modelled.
  - This covers interaction replies and their editing, embed objects, buttons and the message fetches.
  - Replies are an enumeration whose text is given where the code fixes it.
  - The catch-all error reply of the interaction handler is not modelled.
- The voice connection and the audio player are two presence flags. The audio resource and the webm/mkv file probe of `_playSong` are not modelled.
- The debounced embed refreshes and the 10-second refresh interval are not modelled.
- The 5-second grace sleep before teardown is taken as one step of `Player.OnIdle`.
  - A track admitted in that window is modelled as an admission on the state whose `playing` the idle handler cleared, followed by the deferred teardown (`Player.AdmitDuringGraceIsDropped`).
  - An admission still waiting on a service when the pause ends holds the queuing mark, so that teardown is refused. The model does not interleave the pause with an admission's service calls.
- The reconnect race on a voice disconnect is not modelled. `Player.Disconnect` is a teardown.
- The batches run their items one after another in list order (`Admission.QueryBatch`, `Admission.VideoBatch`).
  - The code starts them all at once with `Promise.all`, so its insertion order depends on timing.
  - The link handlers' contracts (`Admission.Grows`) therefore speak of counts and contents, not of order.
- The search, Spotify and download services are the fields of `Providers`. Each is a function of its argument, with its errors already turned into what the client returns.
  - Downloading the audio file is taken to succeed.
  - The services' own code (youTube.ts, spotify.ts, yt-dlp) is not part of this model.
- Admission.StoreTrack: the code stores one shared object under the track id, the search text and the video key.
  - A later `get` on any of the three refreshes the stamp seen through all three.
  - The model stores three independent copies, and a read refreshes only the key read (`TrackCache.Get`).
  - This would change which key `_removeLRU` selects. Nothing in the bot calls `_removeLRU`, and the stamps otherwise reach only the cache file, which is not modelled.
- Admission.Read: the code's lookup `this._cache[kind][key]` also finds properties inherited from `Object.prototype`, such as `constructor`, `__proto__` and `toString`.
  - For such a key `get` returns a function or object that is not an entry.
  - The caller then queues its missing `song`, which throws at `song.title` and leaves the "adding" notice and the queuing mark.
  - The model treats every key that is not in the namespace's own map as a miss.
- Loading and saving the cache file are not modelled.
  - `init` is modelled only for the case where no file can be read.
  - Every stamp is an integer.
- JavaScript's key enumeration order in `_removeLRU` is the parameter `order`.
- `progressBar`'s arithmetic is exact. Floating-point rounding of the quotient and non-integer seconds are not modelled.
- The emoji id in the disc glyph is a parameter of `Util.GlyphText`.
- Each request is one atomic step of the model.
  - In the code, overlapping requests interleave at every `await`. They share the single `_queuing` mark, which each one sets and clears on its own.
  - For example, a YouTube playlist `play` sets the mark (player.ts:848) and awaits its batch. A button pick then sets and clears the same mark (player.ts:712, 745), and a `stop` passes the guard (player.ts:481) and empties the queue.
  - The playlist's remaining admissions then push entries and call `_playSong`, whose `_player?.play` does nothing while `_playing` is set anyway (player.ts:160-161, 590, 594). The result is a queue that is playing with no player.
  - `Player.Consistent` therefore holds only for states reachable by non-overlapping requests.
- One request reads the clock once. Every cache stamp a batch writes is that `now`, while the code calls `Date.now()` per write (cache.ts:95-117).
- `getPosition`, the command and event dispatch, the orchestrator, the duplicate `src/bot/music/embed.ts` and the database services are not part of this model.
- Player.Shuffle: the random permutation is the parameter `shuffled`, and the caller must supply a rearrangement of the entries after the current one.
- Admission.FromQuery: the cascade and the handlers require a store that holds all three namespaces (`TrackCache.WellFormed`). The store `init` actually writes makes every access throw; see Findings.
- Admission.RunHandlers: for a link naming both sites, only the reported count is stated. The Spotify handler's count is folded into the growth of the queue.
- The TypeError `_playSong` throws for an index past the end of the queue appears only in `back`, as the empty reply `NoReply`. Elsewhere the state invariant keeps the index inside the queue.
- Util.PrettyTime: seconds are a natural number. Negative and fractional inputs are not modelled.

## Findings

| source | as written | input that shows it | evidently intended | confidence | as-written member | corrected member |
|---|---|---|---|---|---|---|
| src/bot/music/cache.ts:21-44 | `init` creates the namespaces `queries`, `spotify` and `youtube`, but every access indexes the cache by a cache kind (`spotifyTracks`, `youtubeQueries`, `youtubeTracks`, src/bot/music/model.ts:21) | a fresh cache (no file), then any `get` or `add`, for example `get('spotifyTracks', 'x')` | one empty namespace per cache kind, so a lookup on a fresh cache is a miss | high, not executed | TrackCache.InitAsWritten, TrackCache.FreshStoreThrows | TrackCache.Init, TrackCache.InitLookupsMiss |

=== FILE: admission.dfy ===
/**
 * How requests become queue entries: the cache cascade in front of the search
 * and download services, the Spotify and YouTube link handlers, `play` with its
 * guards and reply, and `addChoice` for a picked search hit. The services are
 * the fields of `Providers`, each a function of its argument with its errors
 * already turned into the value the client returns.
 */
module Admission {
  import opened Wrappers
  import opened Model
  import opened Text
  import opened TrackCache
  import opened Player
  import opened Links
  import opened Embeds

  /** A Spotify track as the playlist and album clients return it: a search text and the track id. */
  datatype TrackQuery = TrackQuery(title: string, trackId: string)

  /**
   * The outside services. `trackQuery` is "" on error; the lists are empty on error;
   * `info` is `None` when the downloader throws. Downloading the audio file is taken to succeed.
   */
  datatype Providers = Providers(
    trackQuery: string -> string,
    albumTracks: string -> seq<TrackQuery>,
    playlistTracks: string -> seq<TrackQuery>,
    search: string -> seq<SearchResult>,
    playlistVideos: string -> seq<string>,
    info: string -> Option<Song>)

  datatype World = World(player: PlayerState, cache: Store)

  // ------------------------------------------------------------ cache access

  /** `key` holds a single entry (the only kind of value the player accepts as a hit). */
  predicate IsSingle(c: Store, kind: CacheKind, key: string) {
    KindName(kind) in c && key in c[KindName(kind)] && c[KindName(kind)][key].Single?
  }

  /** `key` holds a single entry for `song`. */
  predicate Holds(c: Store, kind: CacheKind, key: string, song: Song) {
    IsSingle(c, kind, key) && c[KindName(kind)][key].entry.song == song
  }

  /** The same namespaces with the same keys. */
  predicate SameKeys(c: Store, d: Store) {
    c.Keys == d.Keys && forall n :: n in c ==> c[n].Keys == d[n].Keys
  }

  /** No namespace and no key disappears. */
  predicate KeysGrow(c: Store, d: Store) {
    forall n :: n in c ==> n in d && c[n].Keys <= d[n].Keys
  }

  /** The song of a hit; an array or a miss is no hit. */
  function HitSong(l: Lookup): Option<Song> {
    match l.found
    case Some(Single(e)) => Some(e.song)
    case _ => None
  }

  /** A read that cannot throw, since every namespace is present; it hits exactly on a stored single entry. */
  function Read(c: Store, kind: CacheKind, key: string, now: int): (l: Lookup)
    requires WellFormed(c)
    ensures Get(c, kind, key, now) == Done(l)
    ensures WellFormed(l.store) && SameKeys(c, l.store) && KeysGrow(c, l.store)
    ensures forall k: CacheKind, x: string, s: Song :: Holds(l.store, k, x, s) <==> Holds(c, k, x, s)
    ensures forall k: CacheKind, x: string :: IsSingle(l.store, k, x) <==> IsSingle(c, k, x)
    ensures HitSong(l).Some? <==> IsSingle(c, kind, key)
    ensures HitSong(l).Some? ==> Holds(c, kind, key, HitSong(l).value)
  {
    Get(c, kind, key, now).value
  }

  /** A write that cannot throw: `song` stored as a single entry under `key`. */
  function Write(c: Store, kind: CacheKind, key: string, song: Song, now: int): (d: Store)
    requires WellFormed(c)
    ensures Add(c, kind, key, Single(CacheEntry(song, now)), now) == Done(d)
    ensures WellFormed(d) && KeysGrow(c, d)
    ensures Holds(d, kind, key, song)
    ensures forall k: CacheKind, x: string, s: Song :: (k != kind || x != key) ==> (Holds(d, k, x, s) <==> Holds(c, k, x, s))
  {
    Add(c, kind, key, Single(CacheEntry(song, now)), now).value
  }

  // --------------------------------------------------------------- cascades

  /** Where an admitted song came from: a cache hit in a namespace, the downloader, or nowhere. */
  datatype Via = Cached(kind: CacheKind) | Fetched | Failed

  datatype Outcome = Outcome(world: World, admitted: Option<Song>, via: Via)

  /** Queues `song` for `user`. */
  function Enqueue(w: World, song: Song, user: User, next: bool, now: int): World {
    w.(player := Admit(w.player, EntryFor(song, user), next, now))
  }

  /** What an outcome does to the player: the admitted song is queued, and nothing else happens. */
  predicate Admits(w: World, r: Outcome, user: User, next: bool, now: int) {
    && (r.admitted.None? <==> r.via.Failed?)
    && (r.admitted.Some? ==> r.world.player == Admit(w.player, EntryFor(r.admitted.value, user), next, now))
    && (r.admitted.None? ==> r.world.player == w.player)
    && WellFormed(r.world.cache)
    && KeysGrow(w.cache, r.world.cache)
  }

  /** The cache key of the first search hit for `query`; `undefined` when there is none. */
  function VideoKey(p: Providers, query: string): string {
    var hits := p.search(query);
    PropertyKey(if |hits| > 0 then Some(hits[0].videoId) else None)
  }

  /**
   * One video by cache key (a single YouTube link, or one playlist item): a stored
   * single entry is queued as it is; otherwise the downloader is asked about `url`, and
   * its song is queued and stored under the key.
   */
  function FromVideo(w: World, p: Providers, key: string, url: string, user: User, next: bool, now: int): (r: Outcome)
    requires WellFormed(w.cache)
    ensures Admits(w, r, user, next, now)
    ensures r.via.Cached? <==> IsSingle(w.cache, YoutubeTracks, key)
    ensures r.via.Cached? ==> r.via.kind == YoutubeTracks && Holds(w.cache, YoutubeTracks, key, r.admitted.value)
    ensures !r.via.Cached? ==> r.admitted == p.info(url)
    ensures r.via.Fetched? ==> Holds(r.world.cache, YoutubeTracks, key, r.admitted.value)
  {
    var l := Read(w.cache, YoutubeTracks, key, now);
    match HitSong(l)
    case Some(song) => Outcome(Enqueue(World(w.player, l.store), song, user, next, now), Some(song), Cached(YoutubeTracks))
    case None =>
      match p.info(url)
      case None => Outcome(World(w.player, l.store), None, Failed)
      case Some(song) =>
        Outcome(World(Admit(w.player, EntryFor(song, user), next, now), Write(l.store, YoutubeTracks, key, song, now)),
                Some(song), Fetched)
  }

  /** A downloaded track stored under its track id, its search text and its video key. */
  function StoreTrack(c: Store, q: TrackQuery, key: string, song: Song, now: int): (d: Store)
    requires WellFormed(c)
    ensures WellFormed(d) && KeysGrow(c, d)
    ensures Holds(d, SpotifyTracks, q.trackId, song)
    ensures Holds(d, YoutubeQueries, q.title, song)
    ensures Holds(d, YoutubeTracks, key, song)
  {
    var c1 := Write(c, SpotifyTracks, q.trackId, song, now);
    var c2 := Write(c1, YoutubeQueries, q.title, song, now);
    Write(c2, YoutubeTracks, key, song, now)
  }

  /**
   * The second half of the cascade, after the search text missed: the first search hit's
   * video is looked up; on a miss the downloader is asked about it, and the song is queued
   * and stored under all three keys.
   */
  function FromSearch(w: World, p: Providers, q: TrackQuery, user: User, next: bool, now: int): (r: Outcome)
    requires WellFormed(w.cache)
    ensures Admits(w, r, user, next, now)
    ensures r.via.Cached? <==> IsSingle(w.cache, YoutubeTracks, VideoKey(p, q.title))
    ensures r.via.Cached? ==> r.via.kind == YoutubeTracks && Holds(w.cache, YoutubeTracks, VideoKey(p, q.title), r.admitted.value)
    ensures !r.via.Cached? ==> r.admitted == p.info(WatchUrl(VideoKey(p, q.title)))
    ensures r.via.Fetched? ==>
              && Holds(r.world.cache, SpotifyTracks, q.trackId, r.admitted.value)
              && Holds(r.world.cache, YoutubeQueries, q.title, r.admitted.value)
              && Holds(r.world.cache, YoutubeTracks, VideoKey(p, q.title), r.admitted.value)
    ensures r.via.Failed? ==> SameKeys(w.cache, r.world.cache)
  {
    var key := VideoKey(p, q.title);
    var l := Read(w.cache, YoutubeTracks, key, now);
    match HitSong(l)
    case Some(song) => Outcome(Enqueue(World(w.player, l.store), song, user, next, now), Some(song), Cached(YoutubeTracks))
    case None =>
      match p.info(WatchUrl(key))
      case None => Outcome(World(w.player, l.store), None, Failed)
      case Some(song) =>
        Outcome(World(Admit(w.player, EntryFor(song, user), next, now), StoreTrack(l.store, q, key, song, now)),
                Some(song), Fetched)
  }

  /**
   * One Spotify track by its search text (`_processSong`, and `_addTrack` after its first
   * lookup): the search text is looked up first, then the search continues in `FromSearch`.
   */
  function FromQuery(w: World, p: Providers, q: TrackQuery, user: User, next: bool, now: int): (r: Outcome)
    requires WellFormed(w.cache)
    ensures Admits(w, r, user, next, now)
    ensures r.via == Cached(YoutubeQueries) <==> IsSingle(w.cache, YoutubeQueries, q.title)
    ensures r.via == Cached(YoutubeQueries) ==> Holds(w.cache, YoutubeQueries, q.title, r.admitted.value)
    ensures r.via == Cached(YoutubeTracks) <==>
              !IsSingle(w.cache, YoutubeQueries, q.title) && IsSingle(w.cache, YoutubeTracks, VideoKey(p, q.title))
    ensures r.via == Cached(YoutubeTracks) ==> Holds(w.cache, YoutubeTracks, VideoKey(p, q.title), r.admitted.value)
    ensures r.via != Cached(SpotifyTracks)
    ensures !r.via.Cached? ==> r.admitted == p.info(WatchUrl(VideoKey(p, q.title)))
    ensures r.via.Fetched? ==>
              && Holds(r.world.cache, SpotifyTracks, q.trackId, r.admitted.value)
              && Holds(r.world.cache, YoutubeQueries, q.title, r.admitted.value)
              && Holds(r.world.cache, YoutubeTracks, VideoKey(p, q.title), r.admitted.value)
    ensures r.via.Failed? ==> SameKeys(w.cache, r.world.cache)
  {
    var l := Read(w.cache, YoutubeQueries, q.title, now);
    match HitSong(l)
    case Some(song) => Outcome(Enqueue(World(w.player, l.store), song, user, next, now), Some(song), Cached(YoutubeQueries))
    case None => FromSearch(World(w.player, l.store), p, q, user, next, now)
  }

  /** `_addTrack`: the track id is looked up first; a miss continues with the track's search text. */
  function AddTrack(w: World, p: Providers, trackId: string, user: User, next: bool, now: int): (r: Outcome)
    requires WellFormed(w.cache)
    ensures Admits(w, r, user, next, now)
    ensures r.via == Cached(SpotifyTracks) <==> IsSingle(w.cache, SpotifyTracks, trackId)
    ensures r.via == Cached(SpotifyTracks) ==> Holds(w.cache, SpotifyTracks, trackId, r.admitted.value)
    ensures r.via.Fetched? ==> Holds(r.world.cache, SpotifyTracks, trackId, r.admitted.value)
    ensures !IsSingle(w.cache, SpotifyTracks, trackId) ==>
              r == FromQuery(World(w.player, Read(w.cache, SpotifyTracks, trackId, now).store), p,
                             TrackQuery(p.trackQuery(trackId), trackId), user, next, now)
  {
    var l := Read(w.cache, SpotifyTracks, trackId, now);
    match HitSong(l)
    case Some(song) => Outcome(Enqueue(World(w.player, l.store), song, user, next, now), Some(song), Cached(SpotifyTracks))
    case None => FromQuery(World(w.player, l.store), p, TrackQuery(p.trackQuery(trackId), trackId), user, next, now)
  }

  /** A stored track is queued without asking any service: the outcome does not depend on the providers. */
  lemma CachedTrackIgnoresProviders(w: World, p1: Providers, p2: Providers, trackId: string, user: User, next: bool, now: int)
    requires WellFormed(w.cache) && IsSingle(w.cache, SpotifyTracks, trackId)
    ensures AddTrack(w, p1, trackId, user, next, now) == AddTrack(w, p2, trackId, user, next, now)
  {
  }

  /** A downloaded track is stored: asking for it again, with any services, queues the same song from the cache. */
  lemma FetchedTrackIsCached(w: World, p: Providers, p2: Providers, trackId: string, user: User, next: bool, now: int,
                             user2: User, next2: bool, now2: int)
    requires WellFormed(w.cache)
    requires !IsSingle(w.cache, SpotifyTracks, trackId)
    requires var query := p.trackQuery(trackId);
             !IsSingle(w.cache, YoutubeQueries, query) && !IsSingle(w.cache, YoutubeTracks, VideoKey(p, query))
    requires p.info(WatchUrl(VideoKey(p, p.trackQuery(trackId)))).Some?
    ensures var r := AddTrack(w, p, trackId, user, next, now);
            var r2 := AddTrack(r.world, p2, trackId, user2, next2, now2);
            && r.via.Fetched? && r.admitted == p.info(WatchUrl(VideoKey(p, p.trackQuery(trackId))))
            && r2.via == Cached(SpotifyTracks) && r2.admitted == r.admitted
  {
  }

  /** When the downloader fails on a double miss, nothing is queued and no key is written. */
  lemma FailedTrackQueuesNothing(w: World, p: Providers, trackId: string, user: User, next: bool, now: int)
    requires WellFormed(w.cache)
    requires !IsSingle(w.cache, SpotifyTracks, trackId)
    requires var query := p.trackQuery(trackId);
             !IsSingle(w.cache, YoutubeQueries, query) && !IsSingle(w.cache, YoutubeTracks, VideoKey(p, query))
    requires p.info(WatchUrl(VideoKey(p, p.trackQuery(trackId)))).None?
    ensures var r := AddTrack(w, p, trackId, user, next, now);
            r.admitted.None? && r.world.player == w.player && SameKeys(w.cache, r.world.cache)
  {
  }

  // ----------------------------------------------------------------- batches

  /** The queue entries for `songs` requested by `user`, in order. */
  function EntriesFor(songs: seq<Song>, user: User): (es: seq<QueueEntry>)
    ensures |es| == |songs| && forall k :: 0 <= k < |songs| ==> es[k] == EntryFor(songs[k], user)
  {
    seq(|songs|, k requires 0 <= k < |songs| => EntryFor(songs[k], user))
  }

  datatype Batch = Batch(world: World, admitted: seq<Song>)

  /** What a batch does to the player: the admitted songs are appended after the old queue, the index stays. */
  predicate AppendsAll(w: World, r: Batch, user: User) {
    && r.world.player.queue == w.player.queue + EntriesFor(r.admitted, user)
    && r.world.player.index == w.player.index
    && SameSession(w.player, r.world.player)
    && (Valid(w.player) ==> Valid(r.world.player))
    && WellFormed(r.world.cache)
    && KeysGrow(w.cache, r.world.cache)
  }

  /** The admitted song of an outcome as a list of zero or one. */
  function Admitted(o: Outcome): seq<Song> {
    if o.admitted.Some? then [o.admitted.value] else []
  }

  /** One admission appended at the end, followed by a batch, is a batch. */
  lemma AppendsChain(w: World, o: Outcome, rest: Batch, user: User, now: int)
    requires Admits(w, o, user, false, now) && AppendsAll(o.world, rest, user)
    ensures AppendsAll(w, Batch(rest.world, Admitted(o) + rest.admitted), user)
  {
    var songs := Admitted(o) + rest.admitted;
    if o.admitted.Some? {
      assert EntriesFor(songs, user) == [EntryFor(o.admitted.value, user)] + EntriesFor(rest.admitted, user);
    } else {
      assert songs == rest.admitted;
    }
  }

  /** A Spotify album or playlist: each track through `FromQuery`, one after another, never as "play next". */
  function QueryBatch(w: World, p: Providers, qs: seq<TrackQuery>, user: User, now: int): (r: Batch)
    requires WellFormed(w.cache)
    ensures AppendsAll(w, r, user)
    ensures |r.admitted| <= |qs|
    decreases |qs|
  {
    if |qs| == 0 then Batch(w, [])
    else
      var o := FromQuery(w, p, qs[0], user, false, now);
      var rest := QueryBatch(o.world, p, qs[1..], user, now);
      AppendsChain(w, o, rest, user, now);
      Batch(rest.world, Admitted(o) + rest.admitted)
  }

  /** A YouTube playlist: each video id through `FromVideo` with its watch link, one after another, never as "play next". */
  function VideoBatch(w: World, p: Providers, ids: seq<string>, user: User, now: int): (r: Batch)
    requires WellFormed(w.cache)
    ensures AppendsAll(w, r, user)
    ensures |r.admitted| <= |ids|
    decreases |ids|
  {
    if |ids| == 0 then Batch(w, [])
    else
      var o := FromVideo(w, p, ids[0], WatchUrl(ids[0]), user, false, now);
      var rest := VideoBatch(o.world, p, ids[1..], user, now);
      AppendsChain(w, o, rest, user, now);
      Batch(rest.world, Admitted(o) + rest.admitted)
  }

  // ---------------------------------------------------------- link handlers

  /** The world after a link handler and the count it returns. */
  datatype Added = Added(world: World, count: nat)

  /**
   * What a link handler does to the player: `count` entries requested by `user` join the
   * queue, the old ones stay, the index and the session stay, and the cache only grows.
   */
  predicate Grows(w: World, r: Added, user: User) {
    && |r.world.player.queue| == |w.player.queue| + r.count
    && multiset(w.player.queue) <= multiset(r.world.player.queue)
    && ByUser(multiset(r.world.player.queue) - multiset(w.player.queue), user)
    && r.world.player.index == w.player.index
    && SameSession(w.player, r.world.player)
    && (Valid(w.player) ==> Valid(r.world.player))
    && WellFormed(r.world.cache)
    && KeysGrow(w.cache, r.world.cache)
  }

  /** Every entry of `added` was requested by `user`. */
  predicate ByUser(added: multiset<QueueEntry>, user: User) {
    forall e: QueueEntry | e in added :: e.user == user.name
  }

  /** One entry by `user` added to a queue is all the queue gained. */
  lemma OneByUser(q0: multiset<QueueEntry>, q1: multiset<QueueEntry>, e: QueueEntry, user: User)
    requires q1 == q0 + multiset{e} && e.user == user.name
    ensures ByUser(q1 - q0, user)
  {
    assert q1 - q0 == multiset{e};
  }

  /** A batch appended at the end grows the queue by the number of songs it admitted. */
  lemma BatchGrows(w: World, b: Batch, user: User)
    requires AppendsAll(w, b, user)
    ensures Grows(w, Added(b.world, |b.admitted|), user)
    ensures b.world.player.queue[..|w.player.queue|] == w.player.queue
  {
    var es := EntriesFor(b.admitted, user);
    assert b.world.player.queue == w.player.queue + es;
    assert multiset(b.world.player.queue) - multiset(w.player.queue) == multiset(es);
    forall e: QueueEntry | e in multiset(es) ensures e.user == user.name {
      assert e in es;
    }
  }

  /** A single admission grows the queue by one entry, a failed one by none. */
  lemma SingleGrows(w: World, o: Outcome, user: User, next: bool, now: int)
    requires Admits(w, o, user, next, now)
    ensures Grows(w, Added(o.world, if o.admitted.Some? then 1 else 0), user)
  {
    if o.admitted.Some? {
      OneByUser(multiset(w.player.queue), multiset(o.world.player.queue), EntryFor(o.admitted.value, user), user);
    }
  }

  /** `_addSpotify` with `_addPlaylist`, `_addAlbum` and `_addTrack`; `None` where it throws. */
  function AddSpotify(w: World, p: Providers, link: string, user: User, next: bool, now: int): (r: Option<Added>)
    requires WellFormed(w.cache)
    ensures r.None? <==> ParseSpotify(link).Malformed?
    ensures r.Some? ==> Grows(w, r.value, user)
    ensures r.Some? && !ParseSpotify(link).SpotifyTrack? ==>
              r.value.world.player.queue[..|w.player.queue|] == w.player.queue
    ensures r.Some? && ParseSpotify(link).SpotifyTrack? ==> r.value.count <= 1
    ensures ParseSpotify(link).SpotifyPlaylist? ==> r.value.count <= |p.playlistTracks(ParseSpotify(link).id)|
    ensures ParseSpotify(link).SpotifyAlbum? ==> r.value.count <= |p.albumTracks(ParseSpotify(link).id)|
  {
    match ParseSpotify(link)
    case SpotifyPlaylist(id) =>
      var b := QueryBatch(w, p, p.playlistTracks(id), user, now);
      BatchGrows(w, b, user);
      Some(Added(b.world, |b.admitted|))
    case SpotifyAlbum(id) =>
      var b := QueryBatch(w, p, p.albumTracks(id), user, now);
      BatchGrows(w, b, user);
      Some(Added(b.world, |b.admitted|))
    case SpotifyTrack(id) =>
      var o := AddTrack(w, p, id, user, next, now);
      SingleGrows(w, o, user, next, now);
      Some(Added(o.world, if o.admitted.Some? then 1 else 0))
    case Malformed => None
  }

  /**
   * `_addYoutube`: a playlist goes through `VideoBatch`; a single video is looked up by
   * the text after `?v=` (`undefined` when there is none) and fetched by the link itself.
   */
  function AddYoutube(w: World, p: Providers, link: string, user: User, next: bool, now: int): (r: Added)
    requires WellFormed(w.cache)
    ensures Grows(w, r, user)
    ensures ParseYoutube(link).YoutubePlaylist? ==>
              && r.world.player.queue[..|w.player.queue|] == w.player.queue
              && r.count <= |p.playlistVideos(ParseYoutube(link).id)|
    ensures ParseYoutube(link).Video? ==>
              && r.count <= 1
              && (r.count == 0 <==> !IsSingle(w.cache, YoutubeTracks, PropertyKey(ParseYoutube(link).key)) && p.info(link).None?)
  {
    match ParseYoutube(link)
    case YoutubePlaylist(id) =>
      var b := VideoBatch(w, p, p.playlistVideos(id), user, now);
      BatchGrows(w, b, user);
      Added(b.world, |b.admitted|)
    case Video(key) =>
      var o := FromVideo(w, p, PropertyKey(key), link, user, next, now);
      SingleGrows(w, o, user, next, now);
      Added(o.world, if o.admitted.Some? then 1 else 0)
  }

  // -------------------------------------------------------------------- play

  /** A `/play` call: whether the caller is in a voice channel, which one, the `song` option, the `next` option. */
  datatype Request = Request(inVoice: bool, channel: string, song: Option<string>, next: bool, user: User)

  datatype PlayReply =
    | NotInVoice
    | NoRequests(restartAt: int)
    | PlayFailed
    | ChoicesShown(results: seq<SearchResult>)
    | AddedSongs(count: nat)
    | PrivatePlaylist
    | StuckAdding

  /** The text of the last reply `play` edits in; a handler that throws leaves the "adding" notice. */
  function PlayText(r: PlayReply): string {
    match r
    case NotInVoice => "You must be connected to a voice channel!"
    case NoRequests(t) => "No more requests can be taken. The bot will restart <t:" + IntToString(t) + ":R>"
    case PlayFailed => "Something went wrong!"
    case ChoicesShown(results) => ChoicesText(results)
    case AddedSongs(n) => AddedText(n)
    case PrivatePlaylist => "No tracks found. Is the playlist private?"
    case StuckAdding => "Adding songs to queue!"
  }

  /** The reply after the link handlers, with "song" or "songs" by the count. */
  function AddedText(n: nat): string {
    "Added " + NatToString(n) + " " + (Noun(n) + " to queue!")
  }

  function Noun(n: nat): string {
    if n > 1 then "songs" else "song"
  }

  datatype Played = Played(world: World, reply: PlayReply)

  /** The restart time shown after a shutdown: ten minutes later, in whole seconds rounded down. */
  function RestartAt(shutdownTs: int): (t: int)
    ensures 1000 * t <= shutdownTs + 600000 < 1000 * (t + 1)
  {
    (shutdownTs + 10 * 60 * 1000) / 1000
  }

  /** `_getSongChoices`: a search whose hits are shown and kept as an open prompt; no hits is an error. */
  function SearchChoices(w: World, p: Providers, req: Request, query: string, messageId: string): (r: Played)
    ensures r.world.cache == w.cache
    ensures |p.search(query)| == 0 <==> r.reply == PlayFailed
    ensures |p.search(query)| == 0 ==> r.world == w
    ensures |p.search(query)| > 0 ==>
              && r.reply == ChoicesShown(p.search(query))
              && r.world.player == w.player.(choices := r.world.player.choices)
              && r.world.player.choices == w.player.choices + [PendingChoice(messageId, req.channel, p.search(query), req.next)]
  {
    var results := p.search(query);
    if |results| == 0 then Played(w, PlayFailed)
    else
      var c := PendingChoice(messageId, req.channel, results, req.next);
      Played(w.(player := w.player.(choices := w.player.choices + [c])), ChoicesShown(results))
  }

  /** One handler after another grows the queue by both counts. */
  lemma GrowsChain(w: World, a: Added, b: Added, user: User)
    requires Grows(w, a, user) && Grows(a.world, b, user)
    ensures Grows(w, Added(b.world, a.count + b.count), user)
  {
    var q0, q1, q2 := multiset(w.player.queue), multiset(a.world.player.queue), multiset(b.world.player.queue);
    assert q2 - q0 == (q2 - q1) + (q1 - q0);
  }

  /** The handlers' combined effect: `total` entries queued, of which `play` reports `reported`. */
  datatype Handled = Handled(world: World, total: nat, reported: nat)

  /**
   * The Spotify handler for a `spotify.com` link, then the YouTube handler for a `youtube.com`
   * link; a link naming both sites reports only the YouTube count. `None` where the Spotify
   * handler throws, before the YouTube one runs.
   */
  function RunHandlers(w: World, p: Providers, link: string, user: User, next: bool, now: int): (r: Option<Handled>)
    requires WellFormed(w.cache)
    ensures r.None? <==> Contains(link, "spotify.com") && ParseSpotify(link).Malformed?
    ensures r.Some? ==> Grows(w, Added(r.value.world, r.value.total), user)
    ensures r.Some? ==> r.value.reported <= r.value.total
    ensures r.Some? && !(Contains(link, "spotify.com") && Contains(link, "youtube.com")) ==> r.value.reported == r.value.total
    ensures r.Some? && !Contains(link, "spotify.com") && !Contains(link, "youtube.com") ==> r.value.total == 0
  {
    var none := Added(w, 0);
    var spotify := if Contains(link, "spotify.com") then AddSpotify(w, p, link, user, next, now) else Some(none);
    match spotify
    case None => None
    case Some(a) =>
      if Contains(link, "youtube.com") then
        var b := AddYoutube(a.world, p, link, user, next, now);
        GrowsChain(w, a, b, user);
        Some(Handled(b.world, a.count + b.count, b.count))
      else
        Some(Handled(a.world, a.count, a.count))
  }

  /**
   * The link path of `play`: the request is marked as queuing, a connection is made when
   * there is no player, and the handlers run; a handler that throws leaves the request
   * marked as queuing. An empty result of a Spotify link is reported as a private playlist.
   */
  function AddLink(w: World, p: Providers, link: string, req: Request, now: int): (r: Played)
    requires WellFormed(w.cache)
    ensures r.world.player.hasPlayer
    ensures r.reply == StuckAdding <==> Contains(link, "spotify.com") && ParseSpotify(link).Malformed?
    ensures r.reply == StuckAdding ==> r.world.player.queuing && r.world.player.queue == w.player.queue
    ensures r.reply != StuckAdding ==> !r.world.player.queuing
    ensures r.reply == PrivatePlaylist ==> Contains(link, "spotify.com")
    ensures r.reply.AddedSongs? && r.reply.count == 0 ==> !Contains(link, "spotify.com")
    ensures r.reply.AddedSongs? && !(Contains(link, "spotify.com") && Contains(link, "youtube.com")) ==>
              Grows(World(Prepare(w.player).(queuing := false), w.cache), Added(r.world, r.reply.count), req.user)
    ensures r.reply == StuckAdding || r.reply == PrivatePlaylist || r.reply.AddedSongs?
    ensures r.world.player.index == w.player.index && r.world.player.choices == w.player.choices
    ensures r.world.player.takeRequests == w.player.takeRequests && r.world.player.paused == w.player.paused
    ensures Consistent(w.player) ==> Consistent(r.world.player)
    ensures WellFormed(r.world.cache) && KeysGrow(w.cache, r.world.cache)
  {
    var ready := World(Prepare(w.player), w.cache);
    match RunHandlers(ready, p, link, req.user, req.next, now)
    case None => Played(ready, StuckAdding)
    case Some(h) => Release(w, h, Contains(link, "spotify.com"), req.user)
  }

  /** After the handlers: the queuing mark is cleared, and an empty Spotify result is reported as private. */
  function Release(w: World, h: Handled, spotify: bool, user: User): (r: Played)
    requires Grows(World(Prepare(w.player), w.cache), Added(h.world, h.total), user)
    ensures r.reply == PrivatePlaylist <==> spotify && h.reported == 0
    ensures r.reply != PrivatePlaylist ==> r.reply == AddedSongs(h.reported)
    ensures Grows(World(Prepare(w.player).(queuing := false), w.cache), Added(r.world, h.total), user)
    ensures r.world.player.hasPlayer && !r.world.player.queuing
    ensures r.world.player.index == w.player.index && r.world.player.choices == w.player.choices
    ensures r.world.player.takeRequests == w.player.takeRequests && r.world.player.paused == w.player.paused
    ensures Consistent(w.player) ==> Consistent(r.world.player)
    ensures WellFormed(r.world.cache) && KeysGrow(w.cache, r.world.cache)
  {
    var done := h.world.(player := h.world.player.(queuing := false));
    ReleaseGrows(w, World(Prepare(w.player), w.cache), h, user);
    if h.reported == 0 && spotify then Played(done, PrivatePlaylist)
    else Played(done, AddedSongs(h.reported))
  }

  /** The state `play` hands to the link handlers: queuing, and connected. */
  function Prepare(s: PlayerState): (r: PlayerState)
    ensures r.queuing && r.hasPlayer && (!s.hasPlayer ==> r.hasConnection)
    ensures r == s.(hasPlayer := true, hasConnection := r.hasConnection, queuing := true)
    ensures Consistent(s) ==> Consistent(r)
  {
    var marked := s.(queuing := true);
    if !marked.hasPlayer then Connect(marked) else marked
  }

  /** Clearing the queuing mark after the handlers keeps what they queued. */
  lemma ReleaseGrows(w: World, ready: World, h: Handled, user: User)
    requires ready == World(Prepare(w.player), w.cache)
    requires Grows(ready, Added(h.world, h.total), user)
    ensures var done := h.world.(player := h.world.player.(queuing := false));
            Grows(World(Prepare(w.player).(queuing := false), w.cache), Added(done, h.total), user)
  {
  }

  /**
   * `play`, guard by guard: the caller must be in a voice channel, requests must be open,
   * the option must be non-empty; text that names neither site is a search, anything else a link.
   */
  function Play(w: World, p: Providers, req: Request, messageId: string, now: int): (r: Played)
    requires WellFormed(w.cache)
    ensures !req.inVoice ==> r == Played(w, NotInVoice)
    ensures req.inVoice && !w.player.takeRequests ==>
              r.world == w && r.reply.NoRequests? && r.reply.restartAt == RestartAt(w.player.shutdownTs)
    ensures req.inVoice && w.player.takeRequests && !Truthy(req.song) ==> r == Played(w, PlayFailed)
    ensures req.inVoice && w.player.takeRequests && Truthy(req.song) ==>
              var link := req.song.value;
              if !Contains(link, "youtube.com") && !Contains(link, "spotify.com") then
                r == SearchChoices(w, p, req, link, messageId)
              else
                r == AddLink(w, p, link, req, now)
    ensures r.reply.NoRequests? <==> req.inVoice && !w.player.takeRequests
    ensures r.reply.ChoicesShown? ==> r.world.cache == w.cache && |r.world.player.choices| == |w.player.choices| + 1
    ensures Consistent(w.player) ==> Consistent(r.world.player)
    ensures WellFormed(r.world.cache) && KeysGrow(w.cache, r.world.cache)
  {
    if !req.inVoice then Played(w, NotInVoice)
    else if !w.player.takeRequests then Played(w, NoRequests(RestartAt(w.player.shutdownTs)))
    else if !Truthy(req.song) then Played(w, PlayFailed)
    else
      var link := req.song.value;
      if !Contains(link, "youtube.com") && !Contains(link, "spotify.com") then SearchChoices(w, p, req, link, messageId)
      else AddLink(w, p, link, req, now)
  }

  /** The count in an "Added …" reply, read back: the digits between "Added " and the next space. */
  function ReadCount(text: string): Option<nat> {
    match After(text, "Added ")
    case None => None
    case Some(rest) =>
      var digits := Before(rest, " ");
      if AllDigits(digits) then Some(ParseNat(digits)) else None
  }

  /** `t` ends with `suffix`. */
  predicate EndsWith(t: string, suffix: string) {
    |suffix| <= |t| && t[|t| - |suffix|..] == suffix
  }

  /** The reply to a link names the number of songs the handler reported. */
  lemma AddedCountRoundTrip(n: nat)
    ensures ReadCount(PlayText(AddedSongs(n))) == Some(n)
  {
    var digits := NatToString(n);
    var tail := Noun(n) + " to queue!";
    assert PlayText(AddedSongs(n)) == "Added " + digits + " " + tail;
    AddedPrefix(digits, tail);
    DigitsEndAtSpace(digits, tail);
    ParseNatToString(n);
  }

  /** The text after "Added " is the count and the rest of the reply. */
  lemma AddedPrefix(digits: string, tail: string)
    ensures After("Added " + digits + " " + tail, "Added ") == Some(digits + " " + tail)
  {
    assert "Added " + digits + " " + tail == "" + "Added " + (digits + " " + tail);
    LastCharUniqueUnbordered("Added ");
    SplitAtInserted("", "Added ", digits + " " + tail);
  }

  /** Digits end at the first space. */
  lemma DigitsEndAtSpace(digits: string, tail: string)
    requires AllDigits(digits)
    ensures Before(digits + " " + tail, " ") == digits
  {
    assert ' ' !in digits by {
      forall i | 0 <= i < |digits| ensures digits[i] != ' ' {
        assert IsDigit(digits[i]);
      }
    }
    NoFirstCharNotContained(digits, " ");
    LastCharUniqueUnbordered(" ");
    SplitAtInserted(digits, " ", tail);
  }

  /** The reply says "songs" exactly when there are several. */
  lemma AddedPlural(n: nat)
    ensures EndsWith(PlayText(AddedSongs(n)), "songs to queue!") <==> n > 1
  {
    var t := AddedText(n);
    var tail := Noun(n) + " to queue!";
    assert t == ("Added " + NatToString(n)) + (" " + tail);
    if n > 1 {
      assert tail == "songs to queue!";
      assert t[|t| - 15..] == tail;
    } else {
      assert |tail| == 14;
      assert t[|t| - 15..] == " " + tail;
      assert t[|t| - 15] == ' ';
    }
  }

  /**
   * A Spotify link that names no playlist, album or track throws in the handler: the
   * "adding" notice stays, the request stays marked as queuing, and `stop` on that
   * player then answers "Stopped playing!" without stopping anything.
   */
  lemma MalformedSpotifyLinkSticks(w: World, p: Providers, req: Request, messageId: string, now: int)
    requires WellFormed(w.cache) && Consistent(w.player)
    requires req.inVoice && w.player.takeRequests && req.song.Some?
    requires Contains(req.song.value, "spotify.com") && ParseSpotify(req.song.value).Malformed?
    ensures var r := Play(w, p, req, messageId, now);
            && r.reply == StuckAdding && r.world.player.queuing
            && Stop(r.world.player) == Step(r.world.player, Stopped)
  {
    var r := Play(w, p, req, messageId, now);
    assert req.song.value != "" by {
      assert |req.song.value| > 0 by { assert OccursAt(req.song.value, "spotify.com", IndexOf(req.song.value, "spotify.com").value); }
    }
    assert r == AddLink(w, p, req.song.value, req, now);
    StopDuringAdmissionIsNoOp(r.world.player);
  }

  // ---------------------------------------------------------------- addChoice

  /** The first open prompt posted as `messageId`. */
  function FindChoice(choices: seq<PendingChoice>, messageId: string): (r: Option<nat>)
    ensures r.Some? ==> r.value < |choices| && choices[r.value].messageId == messageId
    ensures forall j :: 0 <= j < |choices| && (r.None? || j < r.value) ==> choices[j].messageId != messageId
    decreases |choices|
  {
    if |choices| == 0 then None
    else if choices[0].messageId == messageId then Some(0)
    else
      match FindChoice(choices[1..], messageId)
      case None => None
      case Some(k) => Some(k + 1)
  }

  /** Which hit a button stands for. */
  function ChoiceIndex(customId: string): Option<nat> {
    if customId == "music_choice_one" then Some(0)
    else if customId == "music_choice_two" then Some(1)
    else if customId == "music_choice_three" then Some(2)
    else None
  }

  /** The video id of the picked hit; `None` for an unknown button or a hit that is not there. */
  function PickedVideo(c: PendingChoice, customId: string): (v: Option<string>)
    ensures v.Some? <==> ChoiceIndex(customId).Some? && ChoiceIndex(customId).value < |c.songs|
    ensures v.Some? ==> v.value == c.songs[ChoiceIndex(customId).value].videoId
  {
    match ChoiceIndex(customId)
    case Some(k) => if k < |c.songs| then Some(c.songs[k].videoId) else None
    case None => None
  }

  /** The link the downloader is asked about. */
  function ChosenUrl(c: PendingChoice, customId: string): string {
    WatchUrl(PropertyKey(PickedVideo(c, customId)))
  }

  datatype ChoiceReply = ChoiceMissing | ChoiceFailed | ChoiceAdded

  function ChoiceText(r: ChoiceReply): string {
    match r
    case ChoiceMissing => "Something went wrong!"
    case ChoiceFailed => "Something went wrong!"
    case ChoiceAdded => "Added song to queue!"
  }

  datatype Chosen = Chosen(state: PlayerState, reply: ChoiceReply)

  /**
   * `addChoice`: the prompt is found by its message; a connection is made when there is
   * no player; the picked video is fetched and queued with the prompt's "play next" option.
   * The cache is not consulted, and the prompt stays open.
   */
  function AddChoice(s: PlayerState, p: Providers, messageId: string, customId: string, user: User, now: int): (r: Chosen)
    ensures FindChoice(s.choices, messageId).None? <==> r.reply == ChoiceMissing
    ensures r.reply == ChoiceMissing ==> r.state == s
    ensures r.state.choices == s.choices
    ensures r.reply != ChoiceMissing ==>
              var c := s.choices[FindChoice(s.choices, messageId).value];
              && r.state.hasPlayer && !r.state.queuing
              && (r.reply == ChoiceAdded <==> p.info(ChosenUrl(c, customId)).Some?)
              && (r.reply == ChoiceFailed ==> r.state.queue == s.queue)
              && (r.reply == ChoiceAdded ==>
                    var e := EntryFor(p.info(ChosenUrl(c, customId)).value, user);
                    && multiset(r.state.queue) == multiset(s.queue) + multiset{e}
                    && (!(c.next && s.playing) ==> r.state.queue == s.queue + [e]))
    ensures r.state.index == s.index && r.state.paused == s.paused && r.state.takeRequests == s.takeRequests
    ensures Consistent(s) ==> Consistent(r.state)
  {
    match FindChoice(s.choices, messageId)
    case None => Chosen(s, ChoiceMissing)
    case Some(i) =>
      var c := s.choices[i];
      Pick(s, p.info(ChosenUrl(c, customId)), c.next, user, now)
  }

  /**
   * `addChoice` once its prompt is found and the downloader has answered `fetched`; `next` is
   * the prompt's option. It connects when there is no player and then marks the request as
   * queuing, which ends in the same state as `Prepare`'s marking first.
   */
  function Pick(s: PlayerState, fetched: Option<Song>, next: bool, user: User, now: int): (r: Chosen)
    ensures r.reply != ChoiceMissing && r.state.hasPlayer && !r.state.queuing
    ensures r.state.choices == s.choices
    ensures r.reply == ChoiceAdded <==> fetched.Some?
    ensures r.reply == ChoiceFailed ==> r.state.queue == s.queue
    ensures r.reply == ChoiceAdded ==>
              var e := EntryFor(fetched.value, user);
              && multiset(r.state.queue) == multiset(s.queue) + multiset{e}
              && (!(next && s.playing) ==> r.state.queue == s.queue + [e])
    ensures r.state.index == s.index && r.state.paused == s.paused && r.state.takeRequests == s.takeRequests
    ensures Consistent(s) ==> Consistent(r.state)
  {
    var marked := Prepare(s);
    match fetched
    case None => Chosen(marked.(queuing := false), ChoiceFailed)
    case Some(song) => Chosen(Admit(marked, EntryFor(song, user), next, now).(queuing := false), ChoiceAdded)
  }

  /** Each button names its own hit, and no other text names one. */
  lemma ButtonChoiceRoundTrip(k: nat, customId: string)
    ensures k < 3 ==> ChoiceIndex(ButtonIds()[k]) == Some(k)
    ensures ChoiceIndex(customId) == Some(k) ==> k < 3 && ButtonIds()[k] == customId
  {
  }

  /** A button beyond the hits of the prompt asks the downloader about the video `undefined`. */
  lemma MissingHitAsksForUndefined(c: PendingChoice, customId: string)
    requires ChoiceIndex(customId).None? || ChoiceIndex(customId).value >= |c.songs|
    ensures ChosenUrl(c, customId) == "https://www.youtube.com/watch?v=undefined"
  {
  }

  /** The prompt stays open: pressing the same button again queues the same song a second time. */
  lemma RepeatedClickQueuesTwice(s: PlayerState, p: Providers, messageId: string, customId: string, user: User, now: int, later: int)
    requires Consistent(s)
    requires var i := FindChoice(s.choices, messageId);
             i.Some? && p.info(ChosenUrl(s.choices[i.value], customId)).Some?
    ensures var r1 := AddChoice(s, p, messageId, customId, user, now);
            var r2 := AddChoice(r1.state, p, messageId, customId, user, later);
            var song := p.info(ChosenUrl(s.choices[FindChoice(s.choices, messageId).value], customId)).value;
            && r1.reply == ChoiceAdded && r2.reply == ChoiceAdded
            && multiset(r2.state.queue) == multiset(s.queue) + multiset{EntryFor(song, user), EntryFor(song, user)}
  {
  }
}

=== FILE: cache.dfy ===
/**
 * The shared track cache (`PlayerCache`): an object of namespaces, each mapping
 * string keys to one time-stamped entry or to an array of them. Reads and
 * writes refresh the stamps; `RemoveLRU` drops the least recently used key.
 * The clock is the parameter `now`; saving to disk is not modelled.
 */
module TrackCache {
  import opened Wrappers
  import opened Model

  datatype CacheEntry = CacheEntry(song: Song, lastAccessed: int)

  /** A stored value: one entry, or an array of entries. */
  datatype CacheValue = Single(entry: CacheEntry) | Many(entries: seq<CacheEntry>)

  type Namespace = map<string, CacheValue>

  /** The cache object: namespace name to namespace. */
  type Store = map<string, Namespace>

  /** The result of an access; `TypeError` is what JavaScript throws when it indexes `undefined`. */
  datatype Access<T> = Done(value: T) | TypeError

  /** Every namespace the player indexes is present. */
  predicate WellFormed(c: Store) {
    forall k: CacheKind :: KindName(k) in c
  }

  function Entries(v: CacheValue): seq<CacheEntry> {
    match v
    case Single(e) => [e]
    case Many(es) => es
  }

  /** `v` and `w` have the same shape and hold the same songs in the same order; only stamps may differ. */
  predicate SameContent(v: CacheValue, w: CacheValue) {
    && v.Single? == w.Single?
    && |Entries(v)| == |Entries(w)|
    && forall i :: 0 <= i < |Entries(v)| ==> Entries(v)[i].song == Entries(w)[i].song
  }

  /** Every entry of `v` was last accessed at `now`. */
  predicate StampedAt(v: CacheValue, now: int) {
    forall i :: 0 <= i < |Entries(v)| ==> Entries(v)[i].lastAccessed == now
  }

  /** Sets `lastAccessed` to `now` on the entry, or on every element of an array. */
  function Touch(v: CacheValue, now: int): (r: CacheValue)
    ensures SameContent(r, v) && StampedAt(r, now)
  {
    match v
    case Single(e) => Single(e.(lastAccessed := now))
    case Many(es) => Many(seq(|es|, i requires 0 <= i < |es| => es[i].(lastAccessed := now)))
  }

  /** Only `d[name][key]` may differ from `c[name][key]`: same namespaces, other namespaces and other keys untouched. */
  predicate OnlyEntryChanged(c: Store, d: Store, name: string, key: string)
    requires name in c && name in d
  {
    && d.Keys == c.Keys
    && (forall n :: n in c && n != name ==> d[n] == c[n])
    && (forall k :: k in c[name] && k != key ==> k in d[name] && d[name][k] == c[name][k])
  }

  datatype Lookup = Lookup(store: Store, found: Option<CacheValue>)

  /**
   * `get(kind, key)`: a hit refreshes the stamps of the stored value (every element of an
   * array) and returns the refreshed value; a miss returns `None` and changes nothing.
   */
  function Get(c: Store, kind: CacheKind, key: string, now: int): (r: Access<Lookup>)
    ensures r.TypeError? <==> KindName(kind) !in c
    ensures r.Done? ==> (r.value.found.Some? <==> key in c[KindName(kind)])
    ensures r.Done? && key !in c[KindName(kind)] ==> r.value.store == c
    ensures r.Done? && key in c[KindName(kind)] ==>
              var name := KindName(kind);
              && name in r.value.store
              && OnlyEntryChanged(c, r.value.store, name, key)
              && r.value.store[name].Keys == c[name].Keys
              && r.value.store[name][key] == r.value.found.value
              && SameContent(r.value.found.value, c[name][key])
              && StampedAt(r.value.found.value, now)
  {
    var name := KindName(kind);
    if name !in c then TypeError
    else if key !in c[name] then Done(Lookup(c, None))
    else
      var v := Touch(c[name][key], now);
      Done(Lookup(c[name := c[name][key := v]], Some(v)))
  }

  /**
   * `add(kind, key, value)`: stores `value` under `key` with every stamp set to `now`,
   * overwriting any previous value of that key. It never removes a key.
   */
  function Add(c: Store, kind: CacheKind, key: string, v: CacheValue, now: int): (r: Access<Store>)
    ensures r.TypeError? <==> KindName(kind) !in c
    ensures r.Done? ==>
              var name := KindName(kind);
              && name in r.value
              && OnlyEntryChanged(c, r.value, name, key)
              && r.value[name].Keys == c[name].Keys + {key}
              && SameContent(r.value[name][key], v)
              && StampedAt(r.value[name][key], now)
  {
    var name := KindName(kind);
    if name !in c then TypeError
    else Done(c[name := c[name][key := Touch(v, now)]])
  }

  /** Reading a key right after writing it returns the written songs, stamped with the read time. */
  lemma AddThenGet(c: Store, kind: CacheKind, key: string, v: CacheValue, t1: int, t2: int)
    requires KindName(kind) in c
    ensures Add(c, kind, key, v, t1).Done?
    ensures var l := Get(Add(c, kind, key, v, t1).value, kind, key, t2);
            l.Done? && l.value.found.Some?
            && SameContent(l.value.found.value, v) && StampedAt(l.value.found.value, t2)
  {
    var d := Add(c, kind, key, v, t1).value;
    var l := Get(d, kind, key, t2);
    assert SameContent(l.value.found.value, d[KindName(kind)][key]);
  }

  /** Reads and writes keep every namespace in place. */
  lemma AccessKeepsWellFormed(c: Store, kind: CacheKind, key: string, v: CacheValue, now: int)
    requires WellFormed(c)
    ensures Get(c, kind, key, now).Done? && WellFormed(Get(c, kind, key, now).value.store)
    ensures Add(c, kind, key, v, now).Done? && WellFormed(Add(c, kind, key, v, now).value)
  {
  }

  // ------------------------------------------------------------------ eviction

  /** How old a value counts as for eviction; an empty array is `Infinity` (`Math.min()` of nothing). */
  datatype Age = At(ms: int) | Infinity

  /** The strict `<` of `_removeLRU`: nothing is older than `Infinity`'s holder, and `Infinity` is older than nothing. */
  predicate Older(a: Age, b: Age) {
    a.At? && (b.Infinity? || a.ms < b.ms)
  }

  function MinStamp(es: seq<CacheEntry>): (m: int)
    requires |es| > 0
    ensures exists i :: 0 <= i < |es| && es[i].lastAccessed == m
    ensures forall i :: 0 <= i < |es| ==> m <= es[i].lastAccessed
  {
    if |es| == 1 then es[0].lastAccessed
    else
      var rest := MinStamp(es[1..]);
      assert forall i :: 1 <= i < |es| ==> es[1..][i - 1] == es[i];
      if es[0].lastAccessed <= rest then es[0].lastAccessed else rest
  }

  /** The effective age of a value: its stamp, or the oldest stamp among its elements. */
  function EffectiveAge(v: CacheValue): (a: Age)
    ensures a.Infinity? <==> |Entries(v)| == 0
    ensures a.At? ==> (forall i :: 0 <= i < |Entries(v)| ==> a.ms <= Entries(v)[i].lastAccessed)
                      && (exists i :: 0 <= i < |Entries(v)| && Entries(v)[i].lastAccessed == a.ms)
  {
    match v
    case Single(e) => assert Entries(v)[0] == e; At(e.lastAccessed)
    case Many(es) => if |es| == 0 then Infinity else At(MinStamp(es))
  }

  /**
   * `oldest` is what the scan of `_removeLRU` selects when the namespace's keys are
   * enumerated in `order`: the first key whose age is strictly older than every key
   * before it and not beaten by any key after it; `None` when every age is `Infinity`.
   */
  ghost predicate IsScanResult(ns: Namespace, order: seq<string>, oldest: Option<string>) {
    match oldest
    case None =>
      forall i :: 0 <= i < |order| && order[i] in ns ==> EffectiveAge(ns[order[i]]).Infinity?
    case Some(k) =>
      exists p :: 0 <= p < |order| && order[p] == k && ScanWinnerAt(ns, order, p)
  }

  ghost predicate ScanWinnerAt(ns: Namespace, order: seq<string>, p: int)
    requires 0 <= p < |order|
  {
    && order[p] in ns
    && EffectiveAge(ns[order[p]]).At?
    && (forall i :: 0 <= i < p && order[i] in ns ==>
          Older(EffectiveAge(ns[order[p]]), EffectiveAge(ns[order[i]])))
    && (forall i :: p < i < |order| && order[i] in ns ==>
          !Older(EffectiveAge(ns[order[i]]), EffectiveAge(ns[order[p]])))
  }

  /** The age the scan compares against: the selected key's, or `Infinity` before any selection. */
  function BestAge(ns: Namespace, oldest: Option<string>): Age
    requires oldest.Some? ==> oldest.value in ns
  {
    if oldest.None? then Infinity else EffectiveAge(ns[oldest.value])
  }

  /** After the first `i` keys of `order`, the scan holds `oldest`, selected at position `pos`. */
  ghost predicate ScanSoFar(ns: Namespace, order: seq<string>, i: nat, oldest: Option<string>, pos: nat)
    requires i <= |order|
  {
    match oldest
    case None =>
      forall j :: 0 <= j < i && order[j] in ns ==> EffectiveAge(ns[order[j]]).Infinity?
    case Some(k) =>
      && pos < i && order[pos] == k && k in ns && EffectiveAge(ns[k]).At?
      && (forall j :: 0 <= j < pos && order[j] in ns ==> Older(EffectiveAge(ns[k]), EffectiveAge(ns[order[j]])))
      && (forall j :: pos < j < i && order[j] in ns ==> !Older(EffectiveAge(ns[order[j]]), EffectiveAge(ns[k])))
  }

  /** A key strictly older than the current selection takes over. */
  lemma ScanTake(ns: Namespace, order: seq<string>, i: nat, oldest: Option<string>, pos: nat)
    requires i < |order| && ScanSoFar(ns, order, i, oldest, pos)
    requires order[i] in ns && Older(EffectiveAge(ns[order[i]]), BestAge(ns, oldest))
    ensures ScanSoFar(ns, order, i + 1, Some(order[i]), i)
  {
  }

  /** Any other key leaves the selection as it is. */
  lemma ScanSkip(ns: Namespace, order: seq<string>, i: nat, oldest: Option<string>, pos: nat)
    requires i < |order| && ScanSoFar(ns, order, i, oldest, pos)
    requires !(order[i] in ns && Older(EffectiveAge(ns[order[i]]), BestAge(ns, oldest)))
    ensures ScanSoFar(ns, order, i + 1, oldest, pos)
  {
  }

  /** The selection loop of `_removeLRU` over one namespace, its keys enumerated in `order`. */
  method Scan(ns: Namespace, order: seq<string>) returns (oldest: Option<string>)
    ensures IsScanResult(ns, order, oldest)
    ensures oldest.Some? ==> oldest.value in ns
  {
    var best: Age := Infinity;
    oldest := None;
    ghost var pos := 0;
    var i := 0;
    while i < |order|
      invariant 0 <= i <= |order|
      invariant oldest.Some? ==> oldest.value in ns
      invariant best == BestAge(ns, oldest)
      invariant ScanSoFar(ns, order, i, oldest, pos)
    {
      var key := order[i];
      if key in ns && Older(EffectiveAge(ns[key]), best) {
        ScanTake(ns, order, i, oldest, pos);
        oldest := Some(key);
        best := EffectiveAge(ns[key]);
        pos := i;
      } else {
        ScanSkip(ns, order, i, oldest, pos);
      }
      i := i + 1;
    }
    if oldest.Some? {
      assert ScanWinnerAt(ns, order, pos);
    }
  }

  /**
   * `_removeLRU(kind)`, with the engine's key enumeration order as the parameter `order`.
   * It deletes the selected key, unless that key is the empty string (which is falsy);
   * a missing namespace is enumerated as empty.
   */
  method RemoveLRU(c: Store, kind: CacheKind, order: seq<string>) returns (d: Store, oldest: Option<string>)
    ensures KindName(kind) !in c ==> d == c && oldest.None?
    ensures KindName(kind) in c ==> IsScanResult(c[KindName(kind)], order, oldest)
    ensures oldest.Some? && oldest.value != "" ==>
              var name := KindName(kind);
              && name in c && d.Keys == c.Keys
              && d[name] == c[name] - {oldest.value}
              && oldest.value in c[name]
              && (forall n :: n in c && n != name ==> d[n] == c[n])
    ensures oldest.None? || oldest.value == "" ==> d == c
  {
    var name := KindName(kind);
    if name !in c {
      return c, None;
    }
    var ns := c[name];
    oldest := Scan(ns, order);
    if oldest.Some? && oldest.value != "" {
      d := c[name := ns - {oldest.value}];
    } else {
      d := c;
    }
  }

  /** The scan is deterministic: one enumeration order admits one selection. */
  lemma ScanResultUnique(ns: Namespace, order: seq<string>, o1: Option<string>, o2: Option<string>)
    requires IsScanResult(ns, order, o1) && IsScanResult(ns, order, o2)
    ensures o1 == o2
  {
  }

  /**
   * When the enumeration lists every key, the selected key has the smallest effective
   * age in the namespace; with no selection, every value is an empty array.
   */
  lemma ScanPicksGlobalMinimum(ns: Namespace, order: seq<string>, oldest: Option<string>)
    requires IsScanResult(ns, order, oldest)
    requires forall k :: k in ns ==> k in order
    ensures oldest.Some? ==>
              oldest.value in ns && EffectiveAge(ns[oldest.value]).At?
              && forall k :: k in ns ==> !Older(EffectiveAge(ns[k]), EffectiveAge(ns[oldest.value]))
    ensures oldest.None? ==> forall k :: k in ns ==> EffectiveAge(ns[k]).Infinity?
  {
    if oldest.Some? {
      var p :| 0 <= p < |order| && order[p] == oldest.value && ScanWinnerAt(ns, order, p);
      forall k | k in ns ensures !Older(EffectiveAge(ns[k]), EffectiveAge(ns[oldest.value])) {
        var i :| 0 <= i < |order| && order[i] == k;
        if i < p {
          assert Older(EffectiveAge(ns[oldest.value]), EffectiveAge(ns[k]));
        }
      }
    } else {
      forall k | k in ns ensures EffectiveAge(ns[k]).Infinity? {
        var i :| 0 <= i < |order| && order[i] == k;
      }
    }
  }

  /**
   * Ties never go to the later key, because the comparison is strict: for any enumeration
   * listing each key once, two keys of equal finite age at positions `i < j` leave a
   * selection, and it is not the key at `j`.
   */
  lemma TieNeverGoesToLater(ns: Namespace, order: seq<string>, i: int, j: int, oldest: Option<string>)
    requires forall x, y :: 0 <= x < y < |order| ==> order[x] != order[y]
    requires 0 <= i < j < |order| && order[i] in ns && order[j] in ns
    requires EffectiveAge(ns[order[i]]).At? && EffectiveAge(ns[order[i]]) == EffectiveAge(ns[order[j]])
    requires IsScanResult(ns, order, oldest)
    ensures oldest.Some? && oldest != Some(order[j])
  {
  }

  /** The two-key case of `TieNeverGoesToLater`: with `[a, b]`, the first key is the one selected. */
  lemma TieGoesToFirst(ns: Namespace, a: string, b: string, oldest: Option<string>)
    requires a in ns && b in ns && a != b
    requires EffectiveAge(ns[a]).At? && EffectiveAge(ns[a]) == EffectiveAge(ns[b])
    requires IsScanResult(ns, [a, b], oldest)
    ensures oldest == Some(a)
  {
    TieNeverGoesToLater(ns, [a, b], 0, 1, oldest);
  }

  // ------------------------------------------------------------ initial store

  /** The store `init` creates when no cache file can be read, as written: namespaces `queries`, `spotify`, `youtube`. */
  function InitAsWritten(): (c: Store)
    ensures forall k: CacheKind :: KindName(k) !in c
    ensures |c.Keys| == 3
  {
    map["queries" := map[], "spotify" := map[], "youtube" := map[]]
  }

  /** With the store `init` writes, every `get` and every `add` throws: the names do not match the kinds. */
  lemma FreshStoreThrows(kind: CacheKind, key: string, v: CacheValue, now: int)
    ensures Get(InitAsWritten(), kind, key, now).TypeError?
    ensures Add(InitAsWritten(), kind, key, v, now).TypeError?
  {
  }

  /** The intended fresh store: one empty namespace per kind. */
  function Init(): (c: Store)
    ensures WellFormed(c)
    ensures forall n :: n in c ==> c[n] == map[]
  {
    map[KindName(SpotifyTracks) := map[], KindName(YoutubeQueries) := map[], KindName(YoutubeTracks) := map[]]
  }

  /** On the intended fresh store every lookup is a miss that changes nothing. */
  lemma InitLookupsMiss(kind: CacheKind, key: string, now: int)
    ensures Get(Init(), kind, key, now) == Done(Lookup(Init(), None))
  {
  }
}

=== FILE: embeds.dfy ===
/**
 * The texts of the queue card and of the song-choice card: which titles the
 * queue card lists around the current entry, how it numbers them and counts the
 * rest, and how the search hits are listed for the user to pick from.
 */
module Embeds {
  import opened Text
  import opened Model

  // ------------------------------------------------------------------ windows

  /** `s.slice(a, b)` for non-negative bounds: both clamped to the length, empty when they cross. */
  function Slice<T>(s: seq<T>, a: nat, b: nat): (r: seq<T>)
    ensures a <= b <= |s| ==> r == s[a..b]
    ensures b <= a ==> r == []
    ensures |r| <= |s|
  {
    var lo := if a < |s| then a else |s|;
    var hi := if b < |s| then b else |s|;
    if lo < hi then s[lo..hi] else []
  }

  /** What the queue card shows around the current entry: up to two earlier titles, up to three later ones, and how many of each are left out. */
  datatype QueueView = QueueView(history: seq<string>, hiddenBefore: nat, upcoming: seq<string>, hiddenAfter: nat)

  function Titles(queue: seq<QueueEntry>): (t: seq<string>)
    ensures |t| == |queue| && forall k :: 0 <= k < |queue| ==> t[k] == queue[k].song.title
  {
    seq(|queue|, k requires 0 <= k < |queue| => queue[k].song.title)
  }

  /** The windows `queueEmbed` takes of the titles at index `i`. */
  function View(titles: seq<string>, i: nat): (v: QueueView)
    ensures |v.history| <= 2 && |v.upcoming| <= 3
    ensures i <= |titles| ==> v.history == titles[Max(0, i - 2)..i]
    ensures i + 1 <= |titles| ==> v.upcoming == titles[i + 1..if i + 4 <= |titles| then i + 4 else |titles|]
    ensures i + 1 > |titles| ==> v.upcoming == []
    ensures v.hiddenBefore == Max(0, i - |v.history|)
    ensures v.hiddenAfter == Max(0, |titles| - 1 - (i + |v.upcoming|))
  {
    var history := Slice(titles, Max(0, i - 2), i);
    var upcoming := Slice(titles, i + 1, i + 4);
    QueueView(history, Max(0, i - |history|), upcoming, Max(0, |titles| - 1 - (i + |upcoming|)))
  }

  /**
   * For an index inside the queue the card accounts for every entry exactly once: the
   * hidden earlier ones, the history, the current entry (never listed), the upcoming
   * ones and the hidden later ones, in that order.
   */
  lemma ViewPartitionsQueue(titles: seq<string>, i: nat)
    requires i < |titles|
    ensures var v := View(titles, i);
            && v.hiddenBefore + |v.history| == i
            && titles[..i] == titles[..v.hiddenBefore] + v.history
            && titles[i + 1..] == v.upcoming + titles[i + 1 + |v.upcoming|..]
            && v.hiddenAfter == |titles| - (i + 1 + |v.upcoming|)
            && v.hiddenBefore + |v.history| + 1 + |v.upcoming| + v.hiddenAfter == |titles|
  {
    var v := View(titles, i);
    HistoryPartition(titles, i, v.hiddenBefore, v.history);
    UpcomingPartition(titles, i, v.upcoming);
  }

  lemma HistoryPartition(titles: seq<string>, i: nat, lo: nat, history: seq<string>)
    requires i < |titles| && lo == Max(0, i - 2) && history == titles[lo..i]
    ensures lo + |history| == i && titles[..i] == titles[..lo] + history
  {
    assert titles[..i] == titles[..lo] + titles[lo..i];
  }

  lemma UpcomingPartition(titles: seq<string>, i: nat, upcoming: seq<string>)
    requires i < |titles| && upcoming == titles[i + 1..if i + 4 <= |titles| then i + 4 else |titles|]
    ensures i + 1 + |upcoming| <= |titles|
    ensures titles[i + 1..] == upcoming + titles[i + 1 + |upcoming|..]
  {
    var hi := i + 1 + |upcoming|;
    assert titles[i + 1..] == titles[i + 1..hi] + titles[hi..];
  }

  // -------------------------------------------------------------- queue text

  /** The "+ N other song(s)" note for `n` titles left out. */
  function OtherSongs(n: nat): string {
    "+ " + NatToString(n) + " other song(s)"
  }

  /** One listed title: its number, then the title, then a blank line. */
  function EntryLine(n: nat, title: string): string {
    NatToString(n) + ". " + title + "\n\n"
  }

  /** The history section's header and note. */
  function HistoryHead(v: QueueView): seq<string> {
    ["**Song History**\n\n"] + (if v.hiddenBefore > 0 then [OtherSongs(v.hiddenBefore) + "\n\n"] else [])
  }

  /** The history titles numbered downward to 1, so the most recent is 1. */
  function HistoryEntries(v: QueueView): (es: seq<string>)
    ensures |es| == |v.history|
  {
    seq(|v.history|, k requires 0 <= k < |v.history| => EntryLine(|v.history| - k, v.history[k]))
  }

  /** The upcoming titles numbered upward from 1, so the next one is 1. */
  function NextEntries(v: QueueView): (es: seq<string>)
    ensures |es| == |v.upcoming|
  {
    seq(|v.upcoming|, k requires 0 <= k < |v.upcoming| => EntryLine(k + 1, v.upcoming[k]))
  }

  function HistorySection(v: QueueView): seq<string> {
    if |v.history| == 0 then [] else HistoryHead(v) + HistoryEntries(v)
  }

  function NextSection(v: QueueView): seq<string> {
    if |v.upcoming| == 0 then []
    else ["**Next in Queue**\n\n"] + NextEntries(v) + (if v.hiddenAfter > 0 then [OtherSongs(v.hiddenAfter)] else [])
  }

  /**
   * The card's description: the history section then the upcoming section, each only
   * when it has a title; "Nothing in Queue" when neither has one.
   */
  function Describe(v: QueueView): (d: string)
    ensures d == "Nothing in Queue" <==> |v.history| == 0 && |v.upcoming| == 0
    ensures |v.history| > 0 ==> "**Song History**\n\n" <= d
    ensures |v.history| == 0 && |v.upcoming| > 0 ==> "**Next in Queue**\n\n" <= d
  {
    var pieces := HistorySection(v) + NextSection(v);
    if |pieces| == 0 then "Nothing in Queue"
    else
      ConcatStartsWithFirst(pieces);
      assert pieces[0][0] == '*';
      Concat(pieces)
  }

  /** The description has one numbered line per listed title and its "+ N" notes exactly when titles are hidden. */
  lemma DescribeCounts(v: QueueView)
    ensures |v.history| > 0 ==> |HistorySection(v)| == 1 + (if v.hiddenBefore > 0 then 1 else 0) + |v.history|
    ensures |v.upcoming| > 0 ==> |NextSection(v)| == 1 + |v.upcoming| + (if v.hiddenAfter > 0 then 1 else 0)
    ensures |v.history| > 0 ==> HistorySection(v)[|HistorySection(v)| - 1] == EntryLine(1, v.history[|v.history| - 1])
    ensures |v.upcoming| > 0 ==> NextSection(v)[1] == EntryLine(1, v.upcoming[0])
  {
  }

  /** The history section, built with the downward counter of the source. */
  method HistoryText(v: QueueView) returns (s: string)
    ensures s == Concat(HistorySection(v))
  {
    s := "";
    if |v.history| >= 1 {
      s := s + "**Song History**\n\n";
      if v.hiddenBefore > 0 {
        s := s + (OtherSongs(v.hiddenBefore) + "\n\n");
      }
      HistoryHeadText(v);
      s := HistoryLines(v, HistoryHead(v), s);
    }
  }

  /** The history titles appended to the head, counting down from the number of titles to 1. */
  method HistoryLines(v: QueueView, head: seq<string>, s0: string) returns (s: string)
    requires s0 == Concat(head)
    ensures s == Concat(head + HistoryEntries(v))
  {
    s := s0;
    var cnt := |v.history|;
    var k := 0;
    assert head + HistoryEntries(v)[..0] == head;
    while k < |v.history|
      invariant 0 <= k <= |v.history| && cnt == |v.history| - k
      invariant s == Concat(head + HistoryEntries(v)[..k])
    {
      SectionStep(head, HistoryEntries(v), k);
      s := s + EntryLine(cnt, v.history[k]);
      cnt := cnt - 1;
      k := k + 1;
    }
    assert HistoryEntries(v)[..k] == HistoryEntries(v);
  }

  /** The joined history head: the header, then the note on hidden titles when there are any. */
  lemma HistoryHeadText(v: QueueView)
    ensures Concat(HistoryHead(v)) ==
              "**Song History**\n\n" + (if v.hiddenBefore > 0 then OtherSongs(v.hiddenBefore) + "\n\n" else "")
  {
    ConcatSnoc([], "**Song History**\n\n");
    if v.hiddenBefore > 0 {
      ConcatSnoc(["**Song History**\n\n"], OtherSongs(v.hiddenBefore) + "\n\n");
    }
  }

  /** One more line joined onto a section. */
  lemma SectionStep(head: seq<string>, lines: seq<string>, k: nat)
    requires k < |lines|
    ensures Concat(head + lines[..k + 1]) == Concat(head + lines[..k]) + lines[k]
  {
    assert head + lines[..k + 1] == (head + lines[..k]) + [lines[k]];
    ConcatSnoc(head + lines[..k], lines[k]);
  }

  /** The upcoming section, built with the upward counter of the source. */
  method NextText(v: QueueView) returns (s: string)
    ensures s == Concat(NextSection(v))
  {
    s := "";
    if |v.upcoming| >= 1 {
      var head := ["**Next in Queue**\n\n"];
      s := s + "**Next in Queue**\n\n";
      ConcatSnoc([], "**Next in Queue**\n\n");
      var cnt := 1;
      var k := 0;
      while k < |v.upcoming|
        invariant 0 <= k <= |v.upcoming| && cnt == k + 1
        invariant s == Concat(head + NextEntries(v)[..k])
      {
        SectionStep(head, NextEntries(v), k);
        s := s + EntryLine(cnt, v.upcoming[k]);
        cnt := cnt + 1;
        k := k + 1;
      }
      assert NextEntries(v)[..k] == NextEntries(v);
      if v.hiddenAfter > 0 {
        ConcatSnoc(head + NextEntries(v), OtherSongs(v.hiddenAfter));
        s := s + OtherSongs(v.hiddenAfter);
      } else {
        assert NextSection(v) == head + NextEntries(v);
      }
    }
  }

  /** `queueEmbed`'s description, built as the source builds it. */
  method QueueDescription(queue: seq<QueueEntry>, index: nat) returns (text: string)
    ensures text == Describe(View(Titles(queue), index))
  {
    var v := View(Titles(queue), index);
    var h := HistoryText(v);
    var n := NextText(v);
    var s := h + n;
    var pieces := HistorySection(v) + NextSection(v);
    ConcatAppend(HistorySection(v), NextSection(v));
    if |pieces| > 0 {
      ConcatStartsWithFirst(pieces);
    }
    if s == "" {
      text := "Nothing in Queue";
    } else {
      text := s;
    }
  }

  // ------------------------------------------------------------ choice text

  /** One search hit in the choice card: its number, the channel in bold, the title, a blank line. */
  function ChoiceBlock(n: nat, r: SearchResult): string {
    NatToString(n) + ". **" + r.channelTitle + "**\n" + r.title + "\n\n"
  }

  function ChoiceBlocks(results: seq<SearchResult>): (bs: seq<string>)
    ensures |bs| == |results|
  {
    seq(|results|, k requires 0 <= k < |results| => ChoiceBlock(k + 1, results[k]))
  }

  /** `songChoicesEmbed`'s description: every hit in order, numbered from 1, with the trailing white space trimmed. */
  function ChoicesText(results: seq<SearchResult>): (t: string)
    ensures |results| == 0 ==> t == ""
    ensures t <= Concat(ChoiceBlocks(results))
    ensures forall i :: |t| <= i < |Concat(ChoiceBlocks(results))| ==> IsWhitespace(Concat(ChoiceBlocks(results))[i])
  {
    TrimEnd(Concat(ChoiceBlocks(results)))
  }

  /** `songChoicesEmbed`'s description, built with the running counter of the source. */
  method ChoicesDescription(results: seq<SearchResult>) returns (text: string)
    ensures text == ChoicesText(results)
  {
    var cnt := 1;
    var s := "";
    var k := 0;
    while k < |results|
      invariant 0 <= k <= |results| && cnt == k + 1
      invariant s == Concat(ChoiceBlocks(results)[..k])
    {
      assert ChoiceBlocks(results)[..k + 1] == ChoiceBlocks(results)[..k] + [ChoiceBlock(cnt, results[k])];
      ConcatSnoc(ChoiceBlocks(results)[..k], ChoiceBlock(cnt, results[k]));
      s := s + ChoiceBlock(cnt, results[k]);
      cnt := cnt + 1;
      k := k + 1;
    }
    assert ChoiceBlocks(results)[..k] == ChoiceBlocks(results);
    text := TrimEnd(s);
  }

  /**
   * When the last title ends in a visible character, trimming removes exactly the final
   * blank line: the text is the earlier blocks and the last hit's lines.
   */
  lemma ChoicesTextDropsFinalBreak(results: seq<SearchResult>)
    requires |results| > 0
    requires var t := results[|results| - 1].title; |t| > 0 && !IsWhitespace(t[|t| - 1])
    ensures var n := |results|;
            var last := results[n - 1];
            ChoicesText(results) ==
              Concat(ChoiceBlocks(results)[..n - 1]) + (NatToString(n) + ". **" + last.channelTitle + "**\n" + last.title)
  {
    var n := |results|;
    var last := results[n - 1];
    var bs := ChoiceBlocks(results);
    var x := Concat(bs[..n - 1]) + (NatToString(n) + ". **" + last.channelTitle + "**\n" + last.title);
    assert bs == bs[..n - 1] + [bs[n - 1]];
    ConcatSnoc(bs[..n - 1], bs[n - 1]);
    assert Concat(bs) == x + "\n\n";
    assert x[|x| - 1] == last.title[|last.title| - 1];
    TrimEndDropsAppended(x, "\n\n");
  }

  /** The custom ids of the three choice buttons, present whatever the number of hits. */
  function ButtonIds(): (ids: seq<string>)
    ensures |ids| == 3
    ensures forall a, b :: 0 <= a < b < |ids| ==> ids[a] != ids[b]
  {
    ["music_choice_one", "music_choice_two", "music_choice_three"]
  }
}

=== FILE: links.dfy ===
/**
 * How `play` reads an id out of a pasted link, by the same string splitting the
 * bot uses: Spotify `playlist/`, `album/` and `track/` ids cut at `?si=`, and
 * YouTube `&list=` ids cut at `&index=`, or else the text after `?v=`.
 */
module Links {
  import opened Wrappers
  import opened Text

  /** The property key JavaScript uses for a value that may be `undefined`. */
  function PropertyKey(v: Option<string>): (k: string)
    ensures v.Some? ==> k == v.value
    ensures v.None? ==> k == "undefined"
  {
    v.GetOr("undefined")
  }

  /** `s.split(sep)[1].split(cut)[0]` behind an `s.includes(sep)` guard; `None` when `sep` is absent. */
  function IdAfter(s: string, sep: string, cut: string): (r: Option<string>)
    ensures r.Some? <==> Contains(s, sep)
  {
    match SplitSecond(s, sep)
    case None => None
    case Some(t) => Some(Before(t, cut))
  }

  /** A JavaScript string is truthy when it is present and not empty. */
  predicate Truthy(v: Option<string>) {
    v.Some? && v.value != ""
  }

  /** What a Spotify link names. `Malformed` is a link with no `track/` once playlist and album are ruled out: the source throws a TypeError there. */
  datatype SpotifyTarget = SpotifyPlaylist(id: string) | SpotifyAlbum(id: string) | SpotifyTrack(id: string) | Malformed

  /** `_addSpotify`'s choice: a non-empty playlist id, else a non-empty album id, else the track id. */
  function ParseSpotify(link: string): (r: SpotifyTarget)
    ensures Truthy(IdAfter(link, "playlist/", "?si=")) <==> r.SpotifyPlaylist?
    ensures r.SpotifyPlaylist? ==> Some(r.id) == IdAfter(link, "playlist/", "?si=") && r.id != ""
    ensures r.SpotifyAlbum? <==>
              !Truthy(IdAfter(link, "playlist/", "?si=")) && Truthy(IdAfter(link, "album/", "?si="))
    ensures r.SpotifyAlbum? ==> Some(r.id) == IdAfter(link, "album/", "?si=") && r.id != ""
    ensures r.SpotifyTrack? ==> Contains(link, "track/") && Some(r.id) == IdAfter(link, "track/", "?si=")
    ensures r.Malformed? <==>
              && !Truthy(IdAfter(link, "playlist/", "?si="))
              && !Truthy(IdAfter(link, "album/", "?si="))
              && !Contains(link, "track/")
  {
    var playlist := IdAfter(link, "playlist/", "?si=");
    if Truthy(playlist) then SpotifyPlaylist(playlist.value)
    else
      var album := IdAfter(link, "album/", "?si=");
      if Truthy(album) then SpotifyAlbum(album.value)
      else
        match IdAfter(link, "track/", "?si=")
        case None => Malformed
        case Some(id) => SpotifyTrack(id)
  }

  /** What a YouTube link names: a non-empty playlist id, else the cache key of a single video. */
  datatype YoutubeTarget = YoutubePlaylist(id: string) | Video(key: Option<string>)

  /** `_addYoutube`'s choice. A link without `?v=` gives an `undefined` video id. */
  function ParseYoutube(link: string): (r: YoutubeTarget)
    ensures r.YoutubePlaylist? <==> Truthy(IdAfter(link, "&list=", "&index="))
    ensures r.YoutubePlaylist? ==> Some(r.id) == IdAfter(link, "&list=", "&index=")
    ensures r.Video? ==> (r.key.Some? <==> Contains(link, "?v="))
    ensures r.Video? ==> r.key == SplitSecond(link, "?v=")
  {
    var playlist := IdAfter(link, "&list=", "&index=");
    if Truthy(playlist) then YoutubePlaylist(playlist.value)
    else Video(SplitSecond(link, "?v="))
  }

  // ------------------------------------------------------------- round trips

  /** The watch link the bot builds for a video id. */
  function WatchUrl(id: string): (u: string)
    ensures |u| == |id| + 32 && u[32..] == id
  {
    "https://www.youtube.com/watch?v=" + id
  }

  lemma SeparatorsUnbordered()
    ensures Unbordered("playlist/") && Unbordered("album/") && Unbordered("track/")
    ensures Unbordered("?si=") && Unbordered("&list=") && Unbordered("&index=") && Unbordered("?v=")
  {
    LastCharUniqueUnbordered("playlist/");
    LastCharUniqueUnbordered("album/");
    LastCharUniqueUnbordered("track/");
    LastCharUniqueUnbordered("?si=");
    LastCharUniqueUnbordered("&list=");
    LastCharUniqueUnbordered("&index=");
    LastCharUniqueUnbordered("?v=");
  }

  /** Splitting `prefix + sep + id + cut + rest` at `sep` and then at `cut` gives back `id`, when `sep` occurs only there and `id` holds no `cut`. */
  lemma IdAfterComposed(prefix: string, sep: string, id: string, cut: string, rest: string)
    requires |sep| > 0 && Unbordered(sep) && |cut| > 0 && Unbordered(cut)
    requires !Contains(prefix, sep) && !Contains(id + cut + rest, sep) && !Contains(id, cut)
    ensures IdAfter(prefix + sep + (id + cut + rest), sep, cut) == Some(id)
  {
    SplitAtInserted(prefix, sep, id + cut + rest);
    SplitAtInserted(id, cut, rest);
  }

  /** A share link to a playlist yields its id. */
  lemma SpotifyPlaylistRoundTrip(prefix: string, id: string, share: string)
    requires !Contains(prefix, "playlist/") && !Contains(id + "?si=" + share, "playlist/")
    requires id != "" && !Contains(id, "?si=")
    ensures ParseSpotify(prefix + "playlist/" + (id + "?si=" + share)) == SpotifyPlaylist(id)
  {
    SeparatorsUnbordered();
    IdAfterComposed(prefix, "playlist/", id, "?si=", share);
  }

  /** A share link to an album that does not mention `playlist/` yields the album id. */
  lemma SpotifyAlbumRoundTrip(prefix: string, id: string, share: string)
    requires !Contains(prefix + "album/" + (id + "?si=" + share), "playlist/")
    requires !Contains(prefix, "album/") && !Contains(id + "?si=" + share, "album/")
    requires id != "" && !Contains(id, "?si=")
    ensures ParseSpotify(prefix + "album/" + (id + "?si=" + share)) == SpotifyAlbum(id)
  {
    SeparatorsUnbordered();
    IdAfterComposed(prefix, "album/", id, "?si=", share);
  }

  /** A share link to a track that mentions neither `playlist/` nor `album/` yields the track id, even an empty one. */
  lemma SpotifyTrackRoundTrip(prefix: string, id: string, share: string)
    requires var link := prefix + "track/" + (id + "?si=" + share);
             !Contains(link, "playlist/") && !Contains(link, "album/")
    requires !Contains(prefix, "track/") && !Contains(id + "?si=" + share, "track/")
    requires !Contains(id, "?si=")
    ensures ParseSpotify(prefix + "track/" + (id + "?si=" + share)) == SpotifyTrack(id)
  {
    SeparatorsUnbordered();
    IdAfterComposed(prefix, "track/", id, "?si=", share);
  }

  /** A playlist link with a non-empty list id yields that id. */
  lemma YoutubePlaylistRoundTrip(prefix: string, id: string, position: string)
    requires !Contains(prefix, "&list=") && !Contains(id + "&index=" + position, "&list=")
    requires id != "" && !Contains(id, "&index=")
    ensures ParseYoutube(prefix + "&list=" + (id + "&index=" + position)) == YoutubePlaylist(id)
  {
    SeparatorsUnbordered();
    IdAfterComposed(prefix, "&list=", id, "&index=", position);
  }

  /** A watch link the bot builds, read back as a link, names the same video. */
  lemma WatchUrlRoundTrip(id: string)
    requires !Contains(WatchUrl(id), "&list=") && !Contains(id, "?v=")
    ensures ParseYoutube(WatchUrl(id)) == Video(Some(id))
  {
    SeparatorsUnbordered();
    var prefix := "https://www.youtube.com/watch";
    assert WatchUrl(id) == prefix + "?v=" + id;
    NoFirstCharNotContained(prefix, "?v=");
    SplitAtInserted(prefix, "?v=", id);
  }
}

=== FILE: model.dfy ===
/** The records the music player passes around (the bot's `model.ts`). */
module Model {
  import opened Wrappers

  /** A resolved track, as built from the downloader's metadata. */
  datatype Song = Song(
    title: string,
    id: string,
    duration: int,
    durationString: string,
    url: string,
    thumbnail: string)

  /** The chat user who asked for a track: display name and optional avatar link. */
  datatype User = User(name: string, avatar: Option<string>)

  /** A queue entry: the song plus who requested it (`Queue` in the bot). */
  datatype QueueEntry = QueueEntry(song: Song, user: string, userImage: string)

  /** One hit of the video search: the video id and the two texts shown to the user. */
  datatype SearchResult = SearchResult(videoId: string, title: string, channelTitle: string)

  /** The three cache namespaces. */
  datatype CacheKind = SpotifyTracks | YoutubeQueries | YoutubeTracks

  /** The property name under which a namespace lives in the cache object. */
  function KindName(k: CacheKind): string {
    match k
    case SpotifyTracks => "spotifyTracks"
    case YoutubeQueries => "youtubeQueries"
    case YoutubeTracks => "youtubeTracks"
  }

  /** The queue entry recorded for `song` requested by `user`; a missing avatar becomes "". */
  function EntryFor(song: Song, user: User): (e: QueueEntry)
    ensures e.song == song && e.user == user.name
    ensures user.avatar.None? ==> e.userImage == ""
  {
    QueueEntry(song, user.name, user.avatar.GetOr(""))
  }
}

=== FILE: player.dfy ===
/**
 * The per-guild player (`GuildPlayer`) as a state machine. Each operation takes
 * the state, the clock `now` (milliseconds) and its inputs, and returns the new
 * state and the reply the user sees. The voice connection and the audio player
 * are reduced to the two presence flags the code tests.
 */
module Player {
  import opened Wrappers
  import opened Model
  import opened Text

  /** An open song-choice prompt: its message, the caller's voice channel, the search hits and the "play next" option. */
  datatype PendingChoice = PendingChoice(messageId: string, channel: string, songs: seq<SearchResult>, next: bool)

  datatype PlayerState = PlayerState(
    queue: seq<QueueEntry>,
    index: nat,
    playing: bool,
    paused: bool,
    queuing: bool,
    takeRequests: bool,
    hasPlayer: bool,
    hasConnection: bool,
    elapsed: int,
    playTs: int,
    startTs: Option<int>,
    pauseTs: Option<int>,
    choices: seq<PendingChoice>,
    shutdownTs: int)

  /** The index invariant: 0 on an empty queue, a position of the queue otherwise. */
  predicate Valid(s: PlayerState) {
    if |s.queue| == 0 then s.index == 0 else s.index < |s.queue|
  }

  /**
   * What every state reachable by non-overlapping requests satisfies: the index invariant,
   * player and connection exist together, and without them nothing is queued or playing.
   */
  predicate Consistent(s: PlayerState) {
    && Valid(s)
    && s.hasPlayer == s.hasConnection
    && (!s.hasPlayer ==> |s.queue| == 0 && !s.playing)
  }

  /** A fresh player: the field initialisers of the class. */
  function Initial(): (s: PlayerState)
    ensures Consistent(s)
    ensures |s.queue| == 0 && !s.playing && !s.paused && !s.queuing && s.takeRequests && !s.hasPlayer
  {
    PlayerState([], 0, false, false, false, true, false, false, 0, 0, None, None, [], 0)
  }

  datatype Reply =
    | NothingPlaying
    | NothingToToggle
    | CantGoBack
    | WentBack
    | RestartedSong
    | NothingToClear
    | Cleared
    | NotEnoughToShuffle
    | Shuffled
    | Skipped
    | Stopped
    | Resumed
    | PausedSong
    | NoReply  // the handler threw before replying

  /** The text each reply carries. */
  function ReplyText(r: Reply): string {
    match r
    case NothingPlaying => "Nothing is playing!"
    case NothingToToggle => "Nothing is currently playing! Add a song with `/play`"
    case CantGoBack => "Can't go back any further!"
    case WentBack => "Went back a song!"
    case RestartedSong => "Restarted Song!"
    case NothingToClear => "No songs in queue to clear!"
    case Cleared => "Cleared queue!"
    case NotEnoughToShuffle => "Not enough songs to shuffle!"
    case Shuffled => "Shuffled queue!"
    case Skipped => "Skipped song!"
    case Stopped => "Stopped playing!"
    case Resumed => "Resumed playing!"
    case PausedSong => "Paused song!"
    case NoReply => ""
  }

  datatype Step = Step(state: PlayerState, reply: Reply)

  /** The fields a track change leaves alone: pause flag, latches, session, prompts, shutdown time. */
  predicate SameSession(s: PlayerState, r: PlayerState) {
    && r.paused == s.paused
    && r.queuing == s.queuing
    && r.takeRequests == s.takeRequests
    && r.hasPlayer == s.hasPlayer
    && r.hasConnection == s.hasConnection
    && r.pauseTs == s.pauseTs
    && r.choices == s.choices
    && r.shutdownTs == s.shutdownTs
  }

  /** The track at `r.index` was (re)started at `now`: playing, clock reset. */
  predicate StartedAt(r: PlayerState, now: int) {
    r.playing && r.playTs == now && r.startTs == Some(now) && r.elapsed == 0
  }

  /** The state part of `_playSong`; the file probe and the audio resource are not modelled. */
  function PlaySong(s: PlayerState, now: int): (r: PlayerState)
    ensures StartedAt(r, now)
    ensures r.queue == s.queue && r.index == s.index && SameSession(s, r)
  {
    s.(playing := true, playTs := now, startTs := Some(now), elapsed := 0)
  }

  /** The state part of `_createConnection`. */
  function Connect(s: PlayerState): (r: PlayerState)
    ensures r.hasPlayer && r.hasConnection
    ensures r.queue == s.queue && r.index == s.index && r.choices == s.choices
    ensures r.playing == s.playing && r.paused == s.paused && r.queuing == s.queuing && r.takeRequests == s.takeRequests
    ensures r.elapsed == s.elapsed && r.playTs == s.playTs && r.startTs == s.startTs && r.pauseTs == s.pauseTs
    ensures r.shutdownTs == s.shutdownTs
    ensures Consistent(s) ==> Consistent(r)
  {
    s.(hasPlayer := true, hasConnection := true)
  }

  /** There is an entry after the current one. */
  predicate HasNext(s: PlayerState) {
    s.index + 1 < |s.queue|
  }

  // ---------------------------------------------------------------- admission

  /** Where an admitted entry goes: right after the current one for "play next" while playing (clamped), else at the end. */
  function InsertPosition(s: PlayerState, next: bool): (p: nat)
    ensures p <= |s.queue|
  {
    if next && s.playing then Min(s.index + 1, |s.queue|) else |s.queue|
  }

  /** `q.splice(p, 0, e)`: `e` placed at position `p`, the rest kept in order around it. */
  function InsertAt(q: seq<QueueEntry>, p: nat, e: QueueEntry): (r: seq<QueueEntry>)
    requires p <= |q|
    ensures |r| == |q| + 1 && r[p] == e
    ensures r[..p] == q[..p] && r[p + 1..] == q[p..]
    ensures multiset(r) == multiset(q) + multiset{e}
    ensures p == |q| ==> r == q + [e]
  {
    var r := q[..p] + [e] + q[p..];
    assert r[..p] == q[..p] && r[p + 1..] == q[p..];
    assert q == q[..p] + q[p..];
    r
  }

  /**
   * `_addSongToQueue`: inserts the entry, leaves the index where it is, and starts
   * playback only when nothing is playing and nothing is paused.
   */
  function Admit(s: PlayerState, e: QueueEntry, next: bool, now: int): (r: PlayerState)
    ensures var p := InsertPosition(s, next);
            && |r.queue| == |s.queue| + 1
            && r.queue[p] == e
            && r.queue[..p] == s.queue[..p]
            && r.queue[p + 1..] == s.queue[p..]
    ensures multiset(r.queue) == multiset(s.queue) + multiset{e}
    ensures !(next && s.playing) ==> r.queue == s.queue + [e]
    ensures r.index == s.index
    ensures !s.playing && !s.paused ==> StartedAt(r, now)
    ensures s.playing || s.paused ==>
              r.playing == s.playing && r.playTs == s.playTs && r.startTs == s.startTs && r.elapsed == s.elapsed
    ensures SameSession(s, r)
    ensures Valid(s) ==> Valid(r)
  {
    var t := Inserted(s, e, next);
    if !s.playing && !s.paused then PlaySong(t, now) else t
  }

  /** The queue part of `_addSongToQueue`: `e` spliced in at its position, every other field kept. */
  function Inserted(s: PlayerState, e: QueueEntry, next: bool): (t: PlayerState)
    ensures var p := InsertPosition(s, next);
            && |t.queue| == |s.queue| + 1
            && t.queue[p] == e
            && t.queue[..p] == s.queue[..p]
            && t.queue[p + 1..] == s.queue[p..]
    ensures multiset(t.queue) == multiset(s.queue) + multiset{e}
    ensures !(next && s.playing) ==> t.queue == s.queue + [e]
  {
    s.(queue := InsertAt(s.queue, InsertPosition(s, next), e))
  }

  // ----------------------------------------------------------------- teardown

  /**
   * `_destroyConnection`: refused while an admission holds the `queuing` latch; otherwise
   * drops player and connection, empties queue and prompts, and resets playback and clock.
   * `paused`, `takeRequests` and `playTs` are left as they were.
   */
  function Teardown(s: PlayerState): (r: PlayerState)
    ensures s.queuing ==> r == s
    ensures !s.queuing ==>
              && |r.queue| == 0 && r.index == 0 && |r.choices| == 0
              && !r.playing && !r.hasPlayer && !r.hasConnection
              && r.elapsed == 0 && r.startTs.None? && r.pauseTs.None?
    ensures r.paused == s.paused && r.takeRequests == s.takeRequests && r.queuing == s.queuing
    ensures r.playTs == s.playTs && r.shutdownTs == s.shutdownTs
    ensures Consistent(s) ==> Consistent(r)
  {
    if s.queuing then s
    else
      s.(hasPlayer := false, hasConnection := false, playing := false, elapsed := 0,
         pauseTs := None, startTs := None, queue := [], index := 0, choices := [])
  }

  /** A real voice disconnect tears the player down. */
  function Disconnect(s: PlayerState): (r: PlayerState)
    ensures !s.queuing ==> !r.hasConnection && |r.queue| == 0
    ensures s.queuing ==> r == s
  {
    Teardown(s)
  }

  /**
   * `_onPlayerIdle`: the track ended. It first clears `playing`; then it moves to the next
   * entry and plays it, or (after the grace pause, taken here as one step) tears down.
   */
  function OnIdle(s: PlayerState, now: int): (r: PlayerState)
    ensures HasNext(s) ==>
              r.queue == s.queue && r.index == s.index + 1 && StartedAt(r, now) && SameSession(s, r)
    ensures !HasNext(s) ==> r == Teardown(s.(playing := false)) && !r.playing
    ensures Consistent(s) ==> Consistent(r)
  {
    var t := s.(playing := false);
    if |t.queue| > 0 && t.index < |t.queue| - 1 then PlaySong(t.(index := t.index + 1), now)
    else Teardown(t)
  }

  // --------------------------------------------------------------- transport

  /**
   * `back`: within 10 s of the last play directive it steps back one entry (refusing at
   * the head of the queue); later it restarts the current entry. Restarting an entry
   * that does not exist throws before any reply.
   */
  function Back(s: PlayerState, now: int): (r: Step)
    ensures !s.hasPlayer ==> r == Step(s, NothingPlaying)
    ensures s.hasPlayer && now - s.playTs < 10000 && s.index == 0 ==> r == Step(s, CantGoBack)
    ensures s.hasPlayer && now - s.playTs < 10000 && s.index > 0 ==>
              && r.reply == WentBack
              && r.state.index == s.index - 1 && r.state.queue == s.queue
              && StartedAt(r.state, now) && SameSession(s, r.state)
    ensures s.hasPlayer && now - s.playTs >= 10000 && s.index < |s.queue| ==>
              && r.reply == RestartedSong
              && r.state.index == s.index && r.state.queue == s.queue
              && StartedAt(r.state, now) && SameSession(s, r.state)
    ensures s.hasPlayer && now - s.playTs >= 10000 && s.index >= |s.queue| ==> r == Step(s, NoReply)
    ensures Consistent(s) ==> Consistent(r.state)
  {
    if !s.hasPlayer then Step(s, NothingPlaying)
    else if now - s.playTs < 10000 then
      if s.index == 0 then Step(s, CantGoBack)
      else Step(PlaySong(s.(index := s.index - 1), now), WentBack)
    else if s.index >= |s.queue| then Step(s, NoReply)
    else Step(PlaySong(s, now), RestartedSong)
  }

  /** `clear`: keeps the queue up to and including the current entry; refused when nothing follows it. */
  function Clear(s: PlayerState): (r: Step)
    ensures !s.hasPlayer ==> r == Step(s, NothingPlaying)
    ensures s.hasPlayer && !HasNext(s) ==> r == Step(s, NothingToClear)
    ensures s.hasPlayer && HasNext(s) ==>
              && r.reply == Cleared
              && r.state == s.(queue := r.state.queue)
              && r.state.queue == s.queue[..s.index + 1]
              && r.state.queue[s.index] == s.queue[s.index]
    ensures Consistent(s) ==> Consistent(r.state)
  {
    if !s.hasPlayer then Step(s, NothingPlaying)
    else if s.index >= |s.queue| - 1 then Step(s, NothingToClear)
    else Step(s.(queue := s.queue[..s.index + 1]), Cleared)
  }

  /** The entries after the current one (`queue.slice(index + 1)`, empty past the end). */
  function Upcoming(s: PlayerState): (u: seq<QueueEntry>)
    ensures s.index + 1 <= |s.queue| ==> u == s.queue[s.index + 1..]
    ensures |u| == if s.index + 1 <= |s.queue| then |s.queue| - s.index - 1 else 0
  {
    if s.index + 1 <= |s.queue| then s.queue[s.index + 1..] else []
  }

  /**
   * `shuffle`: with at least three entries after the current one, replaces them by
   * `shuffled`, which the caller draws as a rearrangement of them; refused otherwise.
   */
  function Shuffle(s: PlayerState, shuffled: seq<QueueEntry>): (r: Step)
    requires multiset(shuffled) == multiset(Upcoming(s))
    ensures !s.hasPlayer ==> r == Step(s, NothingPlaying)
    ensures s.hasPlayer && |Upcoming(s)| < 3 ==> r == Step(s, NotEnoughToShuffle)
    ensures s.hasPlayer && |Upcoming(s)| >= 3 ==>
              && r.reply == Shuffled
              && r.state == s.(queue := r.state.queue)
              && |r.state.queue| == |s.queue|
              && r.state.queue[..s.index + 1] == s.queue[..s.index + 1]
              && multiset(r.state.queue[s.index + 1..]) == multiset(s.queue[s.index + 1..])
    ensures Consistent(s) ==> Consistent(r.state)
  {
    if !s.hasPlayer then Step(s, NothingPlaying)
    else if |Upcoming(s)| < 3 then Step(s, NotEnoughToShuffle)
    else
      var q := s.queue[..s.index + 1] + shuffled;
      assert |shuffled| == |Upcoming(s)| by {
        assert |multiset(shuffled)| == |multiset(Upcoming(s))|;
      }
      assert q[..s.index + 1] == s.queue[..s.index + 1];
      assert q[s.index + 1..] == shuffled;
      Step(s.(queue := q), Shuffled)
  }

  /** `skip`: plays the next entry if there is one; otherwise tears down (and still says it stopped). */
  function Skip(s: PlayerState, now: int): (r: Step)
    ensures !s.hasPlayer ==> r == Step(s, NothingPlaying)
    ensures s.hasPlayer && HasNext(s) ==>
              && r.reply == Skipped
              && r.state.queue == s.queue && r.state.index == s.index + 1
              && StartedAt(r.state, now) && SameSession(s, r.state)
    ensures s.hasPlayer && !HasNext(s) ==> r == Step(Teardown(s), Stopped)
    ensures Consistent(s) ==> Consistent(r.state)
  {
    if !s.hasPlayer then Step(s, NothingPlaying)
    else if s.index < |s.queue| - 1 then Step(PlaySong(s.(index := s.index + 1), now), Skipped)
    else Step(Teardown(s), Stopped)
  }

  /** `stop`: tears down when there is a connection. */
  function Stop(s: PlayerState): (r: Step)
    ensures !s.hasConnection ==> r == Step(s, NothingPlaying)
    ensures s.hasConnection ==> r == Step(Teardown(s), Stopped)
    ensures Consistent(s) ==> Consistent(r.state)
  {
    if !s.hasConnection then Step(s, NothingPlaying)
    else Step(Teardown(s), Stopped)
  }

  /**
   * `toggle`: flips `paused` and sets `playing` to its negation. Resuming restarts the
   * clock; pausing records the pause and folds the time since the last start into
   * `elapsed`, reading a missing start as `-now` (the `?? -pause` of the source).
   */
  function Toggle(s: PlayerState, now: int): (r: Step)
    ensures !s.hasPlayer ==> r == Step(s, NothingToToggle)
    ensures s.hasPlayer ==> r.state.paused == !s.paused && r.state.playing == !r.state.paused
    ensures s.hasPlayer && s.paused ==>
              && r.reply == Resumed
              && r.state.startTs == Some(now) && r.state.pauseTs.None? && r.state.elapsed == s.elapsed
    ensures s.hasPlayer && !s.paused ==>
              && r.reply == PausedSong
              && r.state.pauseTs == Some(now) && r.state.startTs == s.startTs
              && r.state.elapsed == s.elapsed + (now - s.startTs.GetOr(-now))
    ensures r.state == s.(paused := r.state.paused, playing := r.state.playing, startTs := r.state.startTs,
                          pauseTs := r.state.pauseTs, elapsed := r.state.elapsed)
    ensures Consistent(s) ==> Consistent(r.state)
  {
    if !s.hasPlayer then Step(s, NothingToToggle)
    else if s.paused then
      Step(s.(paused := false, playing := true, startTs := Some(now), pauseTs := None), Resumed)
    else
      var start := match s.startTs case Some(t) => t case None => -now;
      Step(s.(paused := true, playing := false, pauseTs := Some(now), elapsed := s.elapsed + (now - start)), PausedSong)
  }

  /** `processShutdown`: stop taking requests and remember when. */
  function ProcessShutdown(s: PlayerState, now: int): (r: PlayerState)
    ensures !r.takeRequests && r.shutdownTs == now
    ensures r == s.(takeRequests := false, shutdownTs := now)
    ensures Consistent(s) ==> Consistent(r)
  {
    s.(takeRequests := false, shutdownTs := now)
  }

  // ------------------------------------------------------------------- quirks

  /** Skipping while paused starts the next track but leaves `paused` set: both flags are true. */
  lemma SkipWhilePausedKeepsPaused(s: PlayerState, now: int)
    requires s.hasPlayer && s.paused && HasNext(s)
    ensures Skip(s, now).state.playing && Skip(s, now).state.paused
  {
  }

  /** Pausing with no start time on record adds twice the clock to `elapsed`. */
  lemma PauseWithoutStartDoublesClock(s: PlayerState, now: int)
    requires s.hasPlayer && !s.paused && s.startTs.None?
    ensures Toggle(s, now).state.elapsed == s.elapsed + 2 * now
  {
  }

  /** `stop` on a stopped player is refused and changes nothing, unless an admission holds the latch. */
  lemma StopIsIdempotent(s: PlayerState)
    requires !s.queuing
    ensures Stop(Stop(s).state) == Step(Stop(s).state, NothingPlaying)
  {
  }

  /** While an admission holds the latch, `stop` answers "Stopped playing!" yet changes nothing. */
  lemma StopDuringAdmissionIsNoOp(s: PlayerState)
    requires s.queuing && s.hasConnection
    ensures Stop(s) == Step(s, Stopped)
  {
  }

  /**
   * Teardown keeps `paused`: after pausing and stopping, the next admitted track is
   * queued on a new connection but never started.
   */
  lemma StopWhilePausedBlocksNextTrack(s: PlayerState, e: QueueEntry, next: bool, now: int)
    requires Consistent(s) && s.hasConnection && s.paused && !s.queuing
    ensures var t := Admit(Connect(Stop(s).state), e, next, now);
            |t.queue| == 1 && t.queue[0] == e && !t.playing && t.paused
  {
  }

  /**
   * A track admitted after the last one ended (before teardown) does not play: the index
   * still points at the finished entry, and that entry is started again.
   */
  lemma AdmitAfterLastTrackReplaysIt(s: PlayerState, e: QueueEntry, next: bool, now: int)
    requires Valid(s) && |s.queue| > 0 && !HasNext(s) && !s.playing && !s.paused
    ensures var t := Admit(s, e, next, now);
            t.index == s.index && t.queue[t.index] == s.queue[s.index] && StartedAt(t, now)
            && t.queue[|s.queue|] == e
  {
    var t := Admit(s, e, next, now);
    assert t.queue[..|s.queue|] == s.queue;
    assert t.queue[t.index] == t.queue[..|s.queue|][s.index];
  }

  /**
   * The grace pause does not keep a track admitted during it: unless an admission still
   * holds the latch when the pause ends, the deferred teardown empties the queue, the new
   * entry included, and stops the entry that was restarted.
   */
  lemma AdmitDuringGraceIsDropped(s: PlayerState, e: QueueEntry, next: bool, now: int)
    requires !HasNext(s) && !s.queuing
    ensures var t := Teardown(Admit(s.(playing := false), e, next, now));
            |t.queue| == 0 && !t.playing && !t.hasPlayer && !t.hasConnection
  {
  }
}

=== FILE: text.dfy ===
/**
 * The string operations the bot relies on, with their JavaScript meaning:
 * `includes`, `indexOf`, the first two pieces of `split`, `trimEnd`, and the
 * decimal rendering of an integer inside a template string; and the integer
 * `Math.max` and `Math.min` the other modules clamp with.
 */
module Text {
  import opened Wrappers

  // ---------------------------------------------------------------- numbers

  function Max(a: int, b: int): int {
    if a < b then b else a
  }

  function Min(a: int, b: int): int {
    if a < b then a else b
  }

  predicate IsDigit(c: char) {
    '0' <= c <= '9'
  }

  predicate AllDigits(s: string) {
    forall i :: 0 <= i < |s| ==> IsDigit(s[i])
  }

  function DigitValue(c: char): nat
    requires IsDigit(c)
  {
    c as int - '0' as int
  }

  function DigitChar(d: nat): (c: char)
    requires d < 10
    ensures IsDigit(c) && DigitValue(c) == d
  {
    (d + '0' as int) as char
  }

  /** `String(n)` for a non-negative integer: decimal digits without a leading zero. */
  function NatToString(n: nat): (r: string)
    ensures |r| >= 1 && AllDigits(r)
    ensures r[0] == '0' <==> n == 0
    ensures |r| == 1 <==> n < 10
    decreases n
  {
    if n < 10 then [DigitChar(n)] else NatToString(n / 10) + [DigitChar(n % 10)]
  }

  /** `String(i)` for any integer. */
  function IntToString(i: int): string {
    if i < 0 then "-" + NatToString(-i) else NatToString(i)
  }

  /** Reads decimal digits back as a number; leading zeros are allowed. */
  function ParseNat(s: string): nat
    requires AllDigits(s)
  {
    if |s| == 0 then 0 else ParseNat(s[..|s| - 1]) * 10 + DigitValue(s[|s| - 1])
  }

  /** Reading back the decimal rendering of `n` gives `n`: the rendering is injective. */
  lemma {:induction false} ParseNatToString(n: nat)
    ensures ParseNat(NatToString(n)) == n
  {
    if n >= 10 {
      var r := NatToString(n);
      assert r[..|r| - 1] == NatToString(n / 10);
      ParseNatToString(n / 10);
    }
  }

  /** A leading zero does not change the value read. */
  lemma {:induction false} ParseNatLeadingZero(s: string)
    requires AllDigits(s)
    ensures AllDigits("0" + s) && ParseNat("0" + s) == ParseNat(s)
  {
    if |s| > 0 {
      var t := "0" + s;
      assert t[..|t| - 1] == "0" + s[..|s| - 1];
      ParseNatLeadingZero(s[..|s| - 1]);
    }
  }

  // ----------------------------------------------------------------- search

  /** `sep` occurs in `s` starting at position `k`. */
  predicate OccursAt(s: string, sep: string, k: nat) {
    k + |sep| <= |s| && s[k..k + |sep|] == sep
  }

  function IndexFrom(s: string, sep: string, k: nat): (r: Option<nat>)
    requires k <= |s|
    ensures r.Some? ==> k <= r.value && OccursAt(s, sep, r.value)
    ensures forall j :: k <= j && (r.None? || j < r.value) ==> !OccursAt(s, sep, j)
    decreases |s| - k
  {
    if OccursAt(s, sep, k) then Some(k)
    else if k == |s| then None
    else IndexFrom(s, sep, k + 1)
  }

  /** `s.indexOf(sep)`, with `None` for -1: the first position where `sep` occurs. */
  function IndexOf(s: string, sep: string): (r: Option<nat>)
    ensures r.Some? ==> OccursAt(s, sep, r.value)
    ensures forall j: nat :: (r.None? || j < r.value) ==> !OccursAt(s, sep, j)
  {
    IndexFrom(s, sep, 0)
  }

  /** `s.includes(sep)`. */
  predicate Contains(s: string, sep: string) {
    IndexOf(s, sep).Some?
  }

  /** The first piece of `s.split(sep)`: everything before the first occurrence of `sep`, or all of `s`. */
  function Before(s: string, sep: string): (r: string)
    ensures r <= s
    ensures !Contains(s, sep) ==> r == s
  {
    match IndexOf(s, sep)
    case None => s
    case Some(k) => s[..k]
  }

  /** Everything after the first occurrence of `sep`; `None` when `sep` does not occur. */
  function After(s: string, sep: string): (r: Option<string>)
    ensures r.Some? <==> Contains(s, sep)
  {
    match IndexOf(s, sep)
    case None => None
    case Some(k) => Some(s[k + |sep|..])
  }

  /**
   * The second piece of `s.split(sep)` for a non-empty separator: the text between the
   * first and the second occurrence of `sep` (or the end); `None` is JavaScript's `undefined`.
   */
  function SplitSecond(s: string, sep: string): (r: Option<string>)
    ensures r.Some? <==> Contains(s, sep)
  {
    match After(s, sep)
    case None => None
    case Some(t) => Some(Before(t, sep))
  }

  /** A string lacking the first character of `sep` does not contain `sep`. */
  lemma NoFirstCharNotContained(s: string, sep: string)
    requires |sep| > 0 && sep[0] !in s
    ensures !Contains(s, sep)
  {
    forall j: nat ensures !OccursAt(s, sep, j) {
      if j + |sep| <= |s| {
        assert s[j..j + |sep|][0] == s[j];
      }
    }
  }

  /** A proper non-empty prefix of `sep` of length `b` that is also a suffix of it. */
  predicate IsBorder(sep: string, b: nat)
    requires b <= |sep|
  {
    sep[..b] == sep[|sep| - b..]
  }

  /** Two occurrences of an unbordered separator can never overlap. */
  predicate Unbordered(sep: string) {
    forall b: nat :: 0 < b < |sep| ==> !IsBorder(sep, b)
  }

  /** A separator whose last character occurs nowhere else in it is unbordered. */
  lemma LastCharUniqueUnbordered(sep: string)
    requires |sep| > 0
    requires forall i :: 0 <= i < |sep| - 1 ==> sep[i] != sep[|sep| - 1]
    ensures Unbordered(sep)
  {
    forall b: nat | 0 < b < |sep| ensures !IsBorder(sep, b) {
      assert sep[..b][b - 1] == sep[b - 1];
      assert sep[|sep| - b..][b - 1] == sep[|sep| - 1];
    }
  }

  /** In `x + sep + y`, the first occurrence of an unbordered `sep` that is absent from `x` is the inserted one. */
  lemma FirstOccurrenceAfter(x: string, sep: string, y: string)
    requires |sep| > 0 && Unbordered(sep) && !Contains(x, sep)
    ensures IndexOf(x + sep + y, sep) == Some(|x|)
  {
    var s := x + sep + y;
    assert s[|x|..|x| + |sep|] == sep;
    assert OccursAt(s, sep, |x|);
    forall j: nat | j < |x| ensures !OccursAt(s, sep, j) {
      if j + |sep| <= |x| {
        assert s[j..j + |sep|] == x[j..j + |sep|];
        assert !OccursAt(x, sep, j);
      } else {
        // an occurrence straddling the end of `x` would make a border of length b
        var b: nat := j + |sep| - |x|;
        assert !IsBorder(sep, b);
        var t :| 0 <= t < b && sep[..b][t] != sep[|sep| - b..][t];
        assert s[j..j + |sep|][|sep| - b + t] == s[|x| + t] == sep[t];
        assert sep[|sep| - b + t] != sep[t];
      }
    }
  }

  /** Splitting `x + sep + y` at an unbordered `sep` absent from `x` gives back `x` and `y`. */
  lemma SplitAtInserted(x: string, sep: string, y: string)
    requires |sep| > 0 && Unbordered(sep) && !Contains(x, sep)
    ensures Before(x + sep + y, sep) == x
    ensures After(x + sep + y, sep) == Some(y)
  {
    FirstOccurrenceAfter(x, sep, y);
    assert (x + sep + y)[..|x|] == x;
    assert (x + sep + y)[|x| + |sep|..] == y;
  }

  // ---------------------------------------------------------- concatenation

  /** The pieces glued together left to right, as a string built by repeated `+=`. */
  function Concat(pieces: seq<string>): string {
    if |pieces| == 0 then "" else Concat(pieces[..|pieces| - 1]) + pieces[|pieces| - 1]
  }

  /** Appending one more piece appends its text. */
  lemma ConcatSnoc(pieces: seq<string>, p: string)
    ensures Concat(pieces + [p]) == Concat(pieces) + p
  {
    assert (pieces + [p])[..|pieces|] == pieces;
  }

  /** Gluing two lists of pieces is gluing their texts. */
  lemma {:induction false} ConcatAppend(a: seq<string>, b: seq<string>)
    ensures Concat(a + b) == Concat(a) + Concat(b)
    decreases |b|
  {
    if |b| == 0 {
      assert a + b == a;
    } else {
      var c := b[..|b| - 1];
      assert a + b == (a + c) + [b[|b| - 1]];
      ConcatSnoc(a + c, b[|b| - 1]);
      ConcatAppend(a, c);
      ConcatSnoc(c, b[|b| - 1]);
      assert c + [b[|b| - 1]] == b;
    }
  }

  /** The text of a non-empty list starts with its first piece. */
  lemma ConcatStartsWithFirst(pieces: seq<string>)
    requires |pieces| > 0
    ensures pieces[0] <= Concat(pieces)
    ensures |Concat(pieces)| >= |pieces[0]|
  {
    ConcatAppend([pieces[0]], pieces[1..]);
    assert [pieces[0]] + pieces[1..] == pieces;
    assert Concat([pieces[0]]) == Concat([]) + pieces[0];
  }

  // ------------------------------------------------------------- white space

  /** The characters JavaScript's `trimEnd` removes: white space and line terminators. */
  predicate IsWhitespace(c: char) {
    || c == ' ' || c == '\t' || c == '\n' || c == '\r'
    || c == '\U{000B}' || c == '\U{000C}' || c == '\U{00A0}' || c == '\U{1680}'
    || ('\U{2000}' <= c <= '\U{200A}')
    || c == '\U{2028}' || c == '\U{2029}' || c == '\U{202F}' || c == '\U{205F}'
    || c == '\U{3000}' || c == '\U{FEFF}'
  }

  /** `s.trimEnd()`: the longest prefix of `s` that does not end in white space, dropping only white space. */
  function TrimEnd(s: string): (r: string)
    ensures r <= s
    ensures |r| > 0 ==> !IsWhitespace(r[|r| - 1])
    ensures forall i :: |r| <= i < |s| ==> IsWhitespace(s[i])
  {
    if |s| > 0 && IsWhitespace(s[|s| - 1]) then TrimEnd(s[..|s| - 1]) else s
  }

  /** Trimming after appending white space to a string that ends in a visible character gives the string back. */
  lemma {:induction false} TrimEndDropsAppended(x: string, w: string)
    requires |x| > 0 && !IsWhitespace(x[|x| - 1])
    requires forall i :: 0 <= i < |w| ==> IsWhitespace(w[i])
    ensures TrimEnd(x + w) == x
  {
    if |w| > 0 {
      assert (x + w)[..|x + w| - 1] == x + w[..|w| - 1];
      TrimEndDropsAppended(x, w[..|w| - 1]);
    } else {
      assert x + w == x;
    }
  }
}

=== FILE: util.dfy ===
/**
 * The two formatting helpers of the now-playing card: `prettyTime`, which
 * renders a number of seconds as a clock, and `progressBar`, which draws a
 * bar of glyphs with a disc at the played fraction.
 */
module Util {
  import opened Wrappers
  import opened Text

  // ---------------------------------------------------------------- clock

  /** The minutes field: "00" when zero, zero-padded to two digits only when an hours field precedes it. */
  function MinutesField(h: nat, m: nat): string {
    if m > 0 then (if m < 10 && h > 0 then "0" else "") + NatToString(m) else "00"
  }

  /** The seconds field: always two digits. */
  function SecondsField(sec: nat): string {
    if sec > 0 then (if sec < 10 then "0" else "") + NatToString(sec) else "00"
  }

  /** The hours, the minutes field and the seconds field, joined by colons; no hours field when there are no hours. */
  function ClockText(h: nat, m: nat, sec: nat): string {
    (if h > 0 then NatToString(h) + ":" else "") + (MinutesField(h, m) + ":" + SecondsField(sec))
  }

  /** Ends in a colon and two digits: the seconds field. */
  predicate EndsInSeconds(r: string) {
    |r| >= 4 && r[|r| - 3] == ':' && IsDigit(r[|r| - 2]) && IsDigit(r[|r| - 1])
  }

  /** Has a colon and two digits before the last three characters: a padded minutes field after hours. */
  predicate HasPaddedMinutes(r: string) {
    |r| >= 7 && r[|r| - 6] == ':' && IsDigit(r[|r| - 5]) && IsDigit(r[|r| - 4])
  }

  /** `prettyTime(seconds)` for a whole non-negative number of seconds. */
  function PrettyTime(seconds: nat): (r: string)
    ensures EndsInSeconds(r)
    ensures seconds >= 3600 ==> HasPaddedMinutes(r)
  {
    ClockBounds(seconds);
    Clock(seconds / 3600, (seconds % 3600) / 60, (seconds % 3600) % 60)
  }

  /** The trimmed clock text of hours, minutes and seconds: trimming leaves it as it is. */
  function Clock(h: nat, m: nat, sec: nat): (r: string)
    requires m < 60 && sec < 60
    ensures r == ClockText(h, m, sec)
    ensures EndsInSeconds(r)
    ensures h > 0 ==> HasPaddedMinutes(r)
  {
    ClockTextShape(h, m, sec);
    DigitEndUntrimmed(ClockText(h, m, sec));
    TrimEnd(ClockText(h, m, sec))
  }

  /** The clock text ends in two digits after a colon, and with hours the minutes field is two digits after a colon too. */
  lemma ClockTextShape(h: nat, m: nat, sec: nat)
    requires m < 60 && sec < 60
    ensures EndsInSeconds(ClockText(h, m, sec))
    ensures h > 0 ==> HasPaddedMinutes(ClockText(h, m, sec))
  {
    SecondsFieldDigits(sec);
    MinutesFieldDigits(h, m);
    var pre := if h > 0 then NatToString(h) + ":" else "";
    FieldsTail(pre, MinutesField(h, m), SecondsField(sec));
  }

  /** Where the last two fields sit at the end of a clock text. */
  lemma FieldsTail(pre: string, mm: string, ss: string)
    requires |mm| >= 1 && |ss| == 2
    ensures var c := pre + (mm + ":" + ss);
            && |c| >= 4 && c[|c| - 1] == ss[1] && c[|c| - 2] == ss[0] && c[|c| - 3] == ':'
            && c[|c| - 4] == mm[|mm| - 1]
            && (|mm| == 2 && |pre| > 1 ==> |c| >= 7 && c[|c| - 5] == mm[0] && c[|c| - 6] == pre[|pre| - 1])
  {
    var tail := mm + ":" + ss;
    var c := pre + tail;
    assert |tail| == |mm| + 3;
    assert c[|c| - 4] == tail[|mm| - 1] == mm[|mm| - 1];
    if |mm| == 2 && |pre| > 1 {
      assert c[|c| - 5] == tail[0] == mm[0];
      assert c[|c| - 6] == pre[|pre| - 1];
    }
  }

  lemma DigitEndUntrimmed(c: string)
    requires EndsInSeconds(c)
    ensures TrimEnd(c) == c
  {
  }

  lemma SecondsFieldDigits(sec: nat)
    requires sec < 60
    ensures var f := SecondsField(sec); |f| == 2 && AllDigits(f) && ParseNat(f) == sec
  {
    var f := SecondsField(sec);
    if sec == 0 {
      assert ParseNat(f) == ParseNat("0") * 10 by { assert f[..1] == "0"; }
    } else if sec < 10 {
      ParseNatLeadingZero(NatToString(sec));
      ParseNatToString(sec);
    } else {
      ParseNatToString(sec);
      assert NatToString(sec) == NatToString(sec / 10) + [DigitChar(sec % 10)];
    }
  }

  lemma MinutesFieldDigits(h: nat, m: nat)
    requires m < 60
    ensures var f := MinutesField(h, m); |f| >= 1 && AllDigits(f) && ParseNat(f) == m
    ensures h > 0 ==> |MinutesField(h, m)| == 2
  {
    var f := MinutesField(h, m);
    if m == 0 {
      assert ParseNat(f) == ParseNat("0") * 10 by { assert f[..1] == "0"; }
    } else if m < 10 && h > 0 {
      ParseNatLeadingZero(NatToString(m));
      ParseNatToString(m);
    } else {
      ParseNatToString(m);
      if m >= 10 {
        assert NatToString(m) == NatToString(m / 10) + [DigitChar(m % 10)];
      }
    }
  }

  /** A clock field: one or more decimal digits. */
  function ParseField(f: string): (r: Option<nat>)
    ensures r.Some? <==> |f| > 0 && AllDigits(f)
  {
    if |f| > 0 && AllDigits(f) then Some(ParseNat(f)) else None
  }

  /** The colon-separated fields of `t`, as `t.split(":")` gives them. */
  function Fields(t: string): (f: seq<string>)
    ensures |f| >= 1
    decreases |t|
  {
    if |t| == 0 then [""]
    else
      var rest := Fields(t[1..]);
      if t[0] == ':' then [""] + rest else [[t[0]] + rest[0]] + rest[1..]
  }

  predicate NoColon(s: string) {
    forall i :: 0 <= i < |s| ==> s[i] != ':'
  }

  /**
   * Reads a clock back: "m:ss" or "h:mm:ss" with decimal fields (leading zeros allowed),
   * giving the number of seconds; `None` for anything else.
   */
  function ParseClock(t: string): Option<nat> {
    var f := Fields(t);
    if |f| == 2 then
      match (ParseField(f[0]), ParseField(f[1]))
      case (Some(m), Some(s)) => Some(m * 60 + s)
      case _ => None
    else if |f| == 3 then
      match (ParseField(f[0]), ParseField(f[1]), ParseField(f[2]))
      case (Some(h), Some(m), Some(s)) => Some(h * 3600 + m * 60 + s)
      case _ => None
    else None
  }

  lemma {:induction false} FieldsNoColon(x: string)
    requires NoColon(x)
    ensures Fields(x) == [x]
    decreases |x|
  {
    if |x| > 0 {
      FieldsNoColon(x[1..]);
      assert [x[0]] + x[1..] == x;
    }
  }

  /** A colon-free field followed by a colon splits off as the first field. */
  lemma {:induction false} FieldsJoin(x: string, y: string)
    requires NoColon(x)
    ensures Fields(x + ":" + y) == [x] + Fields(y)
    decreases |x|
  {
    var t := x + ":" + y;
    if |x| == 0 {
      assert t == ":" + y && t[1..] == y;
    } else {
      assert t[1..] == x[1..] + ":" + y;
      FieldsJoin(x[1..], y);
      assert [x[0]] + x[1..] == x;
    }
  }

  lemma DigitsNoColon(s: string)
    requires AllDigits(s)
    ensures NoColon(s)
  {
    forall i | 0 <= i < |s| ensures s[i] != ':' {
      assert IsDigit(s[i]);
    }
  }

  lemma FieldsTwo(mm: string, ss: string)
    requires NoColon(mm) && NoColon(ss)
    ensures Fields(mm + ":" + ss) == [mm, ss]
  {
    FieldsJoin(mm, ss);
    FieldsNoColon(ss);
  }

  lemma FieldsThree(hh: string, mm: string, ss: string)
    requires NoColon(hh) && NoColon(mm) && NoColon(ss)
    ensures Fields(hh + ":" + (mm + ":" + ss)) == [hh, mm, ss]
  {
    FieldsTwo(mm, ss);
    FieldsJoin(hh, mm + ":" + ss);
  }

  lemma ParseClockTwoFields(mm: string, ss: string, x: nat, y: nat)
    requires |mm| > 0 && |ss| > 0 && AllDigits(mm) && AllDigits(ss)
    requires ParseNat(mm) == x && ParseNat(ss) == y
    ensures ParseClock(mm + ":" + ss) == Some(x * 60 + y)
  {
    DigitsNoColon(mm);
    DigitsNoColon(ss);
    FieldsTwo(mm, ss);
    ParseClockOfTwo(mm + ":" + ss, mm, ss, x, y);
  }

  lemma ParseClockOfTwo(t: string, mm: string, ss: string, x: nat, y: nat)
    requires Fields(t) == [mm, ss] && ParseField(mm) == Some(x) && ParseField(ss) == Some(y)
    ensures ParseClock(t) == Some(x * 60 + y)
  {
  }

  lemma ParseClockThreeFields(hh: string, mm: string, ss: string, x: nat, y: nat, z: nat)
    requires |hh| > 0 && |mm| > 0 && |ss| > 0 && AllDigits(hh) && AllDigits(mm) && AllDigits(ss)
    requires ParseNat(hh) == x && ParseNat(mm) == y && ParseNat(ss) == z
    ensures ParseClock(hh + ":" + (mm + ":" + ss)) == Some(x * 3600 + y * 60 + z)
  {
    DigitsNoColon(hh);
    DigitsNoColon(mm);
    DigitsNoColon(ss);
    FieldsThree(hh, mm, ss);
    ParseClockOfThree(hh + ":" + (mm + ":" + ss), hh, mm, ss, x, y, z);
  }

  lemma ParseClockOfThree(t: string, hh: string, mm: string, ss: string, x: nat, y: nat, z: nat)
    requires Fields(t) == [hh, mm, ss]
    requires ParseField(hh) == Some(x) && ParseField(mm) == Some(y) && ParseField(ss) == Some(z)
    ensures ParseClock(t) == Some(x * 3600 + y * 60 + z)
  {
  }

  /** Reading back the clock text of hours, minutes and seconds gives the total in seconds. */
  lemma ParseClockText(h: nat, m: nat, sec: nat, total: nat)
    requires m < 60 && sec < 60 && total == h * 3600 + m * 60 + sec
    ensures ParseClock(ClockText(h, m, sec)) == Some(total)
  {
    if h > 0 {
      ParseClockTextHours(h, m, sec, total);
    } else {
      ParseClockTextMinutes(h, m, sec, total);
    }
  }

  lemma ParseClockTextHours(h: nat, m: nat, sec: nat, total: nat)
    requires h > 0 && m < 60 && sec < 60 && total == h * 3600 + m * 60 + sec
    ensures ParseClock(ClockText(h, m, sec)) == Some(total)
  {
    ParseFieldsHours(h, m, sec, total);
    ClockTextFields(h, m, sec);
  }

  lemma ParseClockTextMinutes(h: nat, m: nat, sec: nat, total: nat)
    requires h == 0 && m < 60 && sec < 60 && total == h * 3600 + m * 60 + sec
    ensures ParseClock(ClockText(h, m, sec)) == Some(total)
  {
    ParseFieldsMinutes(h, m, sec, total);
    ClockTextFields(h, m, sec);
  }

  /** The clock text written out as its fields. */
  lemma ClockTextFields(h: nat, m: nat, sec: nat)
    ensures h > 0 ==> ClockText(h, m, sec) == NatToString(h) + ":" + (MinutesField(h, m) + ":" + SecondsField(sec))
    ensures h == 0 ==> ClockText(h, m, sec) == MinutesField(h, m) + ":" + SecondsField(sec)
  {
  }

  lemma ParseFieldsHours(h: nat, m: nat, sec: nat, total: nat)
    requires m < 60 && sec < 60 && total == h * 3600 + m * 60 + sec
    ensures ParseClock(NatToString(h) + ":" + (MinutesField(h, m) + ":" + SecondsField(sec))) == Some(total)
  {
    FieldsParse(h, m, sec);
    ParseClockThreeFields(NatToString(h), MinutesField(h, m), SecondsField(sec), h, m, sec);
  }

  lemma ParseFieldsMinutes(h: nat, m: nat, sec: nat, total: nat)
    requires h == 0 && m < 60 && sec < 60 && total == m * 60 + sec
    ensures ParseClock(MinutesField(h, m) + ":" + SecondsField(sec)) == Some(total)
  {
    FieldsParse(h, m, sec);
    ParseClockTwoFields(MinutesField(h, m), SecondsField(sec), m, sec);
  }

  /** Each field of the clock text is a non-empty run of digits that reads back as its number. */
  lemma FieldsParse(h: nat, m: nat, sec: nat)
    requires m < 60 && sec < 60
    ensures var hh, mm, ss := NatToString(h), MinutesField(h, m), SecondsField(sec);
            && |hh| > 0 && |mm| > 0 && |ss| > 0 && AllDigits(hh) && AllDigits(mm) && AllDigits(ss)
            && ParseNat(hh) == h && ParseNat(mm) == m && ParseNat(ss) == sec
  {
    SecondsFieldDigits(sec);
    MinutesFieldDigits(h, m);
    ParseNatToString(h);
  }

  /** The rendering is the untrimmed clock text of the hours, minutes and seconds. */
  lemma PrettyTimeIsClock(seconds: nat)
    ensures (seconds % 3600) / 60 < 60 && (seconds % 3600) % 60 < 60
    ensures PrettyTime(seconds) == ClockText(seconds / 3600, (seconds % 3600) / 60, (seconds % 3600) % 60)
  {
    ClockBounds(seconds);
  }

  /** Reading the clock back gives the number of seconds: the rendering loses nothing. */
  lemma ParseClockPrettyTime(seconds: nat)
    ensures ParseClock(PrettyTime(seconds)) == Some(seconds)
  {
    PrettyTimeIsClock(seconds);
    ClockSplit(seconds);
    ParseClockText(seconds / 3600, (seconds % 3600) / 60, (seconds % 3600) % 60, seconds);
  }

  /** The minutes and seconds fields are below 60, and there are hours from 3600 seconds on. */
  lemma ClockBounds(seconds: nat)
    ensures (seconds % 3600) / 60 < 60 && (seconds % 3600) % 60 < 60
    ensures seconds >= 3600 ==> seconds / 3600 > 0
  {
  }

  /** Hours, minutes and seconds add back up to the whole. */
  lemma ClockSplit(seconds: nat)
    ensures (seconds % 3600) / 60 < 60 && (seconds % 3600) % 60 < 60
    ensures seconds == (seconds / 3600) * 3600 + ((seconds % 3600) / 60) * 60 + (seconds % 3600) % 60
  {
  }

  /** Different numbers of seconds are rendered differently. */
  lemma PrettyTimeInjective(a: nat, b: nat)
    requires PrettyTime(a) == PrettyTime(b)
    ensures a == b
  {
    ParseClockPrettyTime(a);
    ParseClockPrettyTime(b);
  }

  /** Zero seconds: both fields are "00". */
  lemma PrettyTimeZero()
    ensures PrettyTime(0) == "00:00"
  {
    PrettyTimeIsClock(0);
    assert 0 / 3600 == 0 && (0 % 3600) / 60 == 0 && (0 % 3600) % 60 == 0;
    ClockTextZero();
  }

  lemma ClockTextZero()
    ensures ClockText(0, 0, 0) == "00:00"
  {
    assert MinutesField(0, 0) == "00" && SecondsField(0) == "00";
  }

  /** A minute and five seconds: no padding on the minutes without an hours field. */
  lemma PrettyTimeMinute()
    ensures PrettyTime(65) == "1:05"
  {
    PrettyTimeIsClock(65);
    assert 65 / 3600 == 0 && (65 % 3600) / 60 == 1 && (65 % 3600) % 60 == 5;
    ClockTextMinute();
  }

  lemma ClockTextMinute()
    ensures ClockText(0, 1, 5) == "1:05"
  {
    assert MinutesField(0, 1) == "1" by { assert NatToString(1) == "1"; }
    assert SecondsField(5) == "05" by { assert NatToString(5) == "5"; }
  }

  /** An hour and five seconds: the empty minutes field is still "00". */
  lemma PrettyTimeHour()
    ensures PrettyTime(3605) == "1:00:05"
  {
    PrettyTimeIsClock(3605);
    assert 3605 / 3600 == 1 && (3605 % 3600) / 60 == 0 && (3605 % 3600) % 60 == 5;
    ClockTextHour();
  }

  lemma ClockTextHour()
    ensures ClockText(1, 0, 5) == "1:00:05"
  {
    assert NatToString(1) == "1";
    assert SecondsField(5) == "05" by { assert NatToString(5) == "5"; }
  }

  // ------------------------------------------------------------ progress bar

  function Abs(x: int): nat {
    if x < 0 then -x else x
  }

  /** `p` is `Math.round(num / den)`: the nearest integer, halves rounded up. */
  predicate RoundsTo(num: int, den: int, p: int) {
    den * (2 * p - 1) <= 2 * num < den * (2 * p + 1)
  }

  lemma PositiveFactor(den: int, x: int)
    requires den > 0 && den * x > 0
    ensures x > 0
  {
  }

  /** At most one integer is the rounding of a fraction. */
  lemma RoundingUnique(num: int, den: int, p: int, q: int)
    requires den > 0 && RoundsTo(num, den, p) && RoundsTo(num, den, q)
    ensures p == q
  {
    assert den * (2 * p - 1) < den * (2 * q + 1);
    assert den * ((2 * q + 1) - (2 * p - 1)) > 0;
    PositiveFactor(den, (2 * q + 1) - (2 * p - 1));
    assert den * (2 * q - 1) < den * (2 * p + 1);
    assert den * ((2 * p + 1) - (2 * q - 1)) > 0;
    PositiveFactor(den, (2 * p + 1) - (2 * q - 1));
  }

  /**
   * The marker's place: `Math.round(barLength * elapsed / duration)`, computed exactly.
   * With a zero duration the quotient is infinite or NaN and equals no index: `None`.
   */
  function Position(duration: int, elapsed: int, barLength: int): (p: Option<int>)
    ensures p.None? <==> duration == 0
    ensures p.Some? ==>
              RoundsTo(if duration > 0 then barLength * elapsed else -(barLength * elapsed), Abs(duration), p.value)
  {
    if duration == 0 then None
    else
      var num := if duration > 0 then barLength * elapsed else -(barLength * elapsed);
      var den := Abs(duration);
      var q := (2 * num + den) / (2 * den);
      assert 2 * den * q <= 2 * num + den < 2 * den * (q + 1);
      Some(q)
  }

  /** Any integer that rounds the fraction is the marker's place. */
  lemma PositionIsRound(duration: int, elapsed: int, barLength: int, p: int)
    requires duration != 0
    requires RoundsTo(if duration > 0 then barLength * elapsed else -(barLength * elapsed), Abs(duration), p)
    ensures Position(duration, elapsed, barLength) == Some(p)
  {
    var num := if duration > 0 then barLength * elapsed else -(barLength * elapsed);
    RoundingUnique(num, Abs(duration), p, Position(duration, elapsed, barLength).value);
  }

  datatype Glyph = Disc | Dash

  /**
   * The text of one bar segment, as util.ts spells it: the UTF-8 bytes of U+25AC read
   * back as Windows-1252, i.e. the three characters U+00E2, U+2013 and U+00AC.
   */
  const DashText: string := "\U{00E2}\U{2013}\U{00AC}"

  /** The text of a glyph: the animated disc emoji with the configured id, or the bar segment. */
  function GlyphText(g: Glyph, discEmojiId: string): (t: string)
    ensures g == Dash ==> t == DashText
    ensures g == Disc ==>
              && |t| == |discEmojiId| + 7
              && t[..6] == "<a:cd:" && t[6..|t| - 1] == discEmojiId && t[|t| - 1] == '>'
    ensures |t| > 0 && (t[0] == '<' <==> g == Disc)
  {
    match g
    case Disc => "<a:cd:" + discEmojiId + ">"
    case Dash => DashText
  }

  /** The string `progressBar` returns for a row of glyphs: their texts, in order. */
  function BarText(bar: seq<Glyph>, discEmojiId: string): (t: string)
    ensures Disc !in bar ==> |t| == 3 * |bar|
    ensures Disc in bar <==> Opens(t)
    ensures |bar| == 0 <==> |t| == 0
  {
    if |bar| == 0 then ""
    else
      var head, rest := GlyphText(bar[0], discEmojiId), BarText(bar[1..], discEmojiId);
      JoinOpens(bar, head, rest);
      head + rest
  }

  /** Whether a text holds the opening `<` of a disc. */
  predicate Opens(t: string) {
    exists i :: 0 <= i < |t| && t[i] == '<'
  }

  /** The step of `BarText`'s disc clause: a `<` in the joined text comes from the head glyph or the rest. */
  lemma JoinOpens(bar: seq<Glyph>, head: string, rest: string)
    requires |bar| > 0
    requires bar[0] == Dash ==> head == DashText
    requires bar[0] == Disc ==> |head| > 0 && head[0] == '<'
    requires Disc in bar[1..] <==> Opens(rest)
    ensures Disc in bar <==> Opens(head + rest)
  {
    assert bar == [bar[0]] + bar[1..];
    var t := head + rest;
    if Disc in bar {
      if bar[0] == Disc {
        assert t[0] == '<';
      } else {
        var j :| 0 <= j < |rest| && rest[j] == '<';
        assert t[|head| + j] == '<';
      }
    }
    if Opens(t) {
      var i :| 0 <= i < |t| && t[i] == '<';
      if i < |head| {
        assert head[i] == '<';
      } else {
        assert rest[i - |head|] == '<';
      }
    }
  }

  /** Rendering is segment by segment: the text of a joined bar is the joined texts. */
  lemma {:induction false} BarTextAppend(a: seq<Glyph>, b: seq<Glyph>, discEmojiId: string)
    ensures BarText(a + b, discEmojiId) == BarText(a, discEmojiId) + BarText(b, discEmojiId)
    decreases |a|
  {
    if |a| == 0 {
      assert a + b == b;
    } else {
      assert (a + b)[1..] == a[1..] + b;
      BarTextAppend(a[1..], b, discEmojiId);
    }
  }

  /** The default bar length. */
  const DefaultBarLength: int := 12

  /**
   * `progressBar(duration, elapsedTime, barLength)`: `barLength` glyphs (none for a
   * non-positive length), the disc exactly at the rounded position and nowhere else.
   */
  method ProgressBar(duration: int, elapsed: int, barLength: int) returns (bar: seq<Glyph>)
    ensures |bar| == Max(0, barLength)
    ensures forall i :: 0 <= i < |bar| ==> (bar[i] == Disc <==> Position(duration, elapsed, barLength) == Some(i))
    ensures forall i, j :: 0 <= i < |bar| && 0 <= j < |bar| && bar[i] == Disc && bar[j] == Disc ==> i == j
    ensures Position(duration, elapsed, barLength).None? ==> Disc !in bar
  {
    var position := Position(duration, elapsed, barLength);
    bar := [];
    var i := 0;
    while i < barLength
      invariant 0 <= i <= Max(0, barLength) && |bar| == i
      invariant forall j :: 0 <= j < i ==> (bar[j] == Disc <==> position == Some(j))
    {
      bar := bar + [if position == Some(i) then Disc else Dash];
      i := i + 1;
    }
  }

  /** `progressBar` with the default length: twelve glyphs. */
  method DefaultProgressBar(duration: int, elapsed: int) returns (bar: seq<Glyph>)
    ensures |bar| == 12
    ensures forall i :: 0 <= i < 12 ==> (bar[i] == Disc <==> Position(duration, elapsed, DefaultBarLength) == Some(i))
  {
    bar := ProgressBar(duration, elapsed, DefaultBarLength);
  }
}

=== FILE: wrappers.dfy ===
/** Optional values: JavaScript's `undefined`/`null` where the source uses them as "absent". */
module Wrappers {

  datatype Option<+T> = None | Some(value: T) {

    /** Returns the value, or `default` when absent (JavaScript's `x ?? default`). */
    function GetOr(default: T): T {
      match this
      case Some(v) => v
      case None => default
    }
  }
}
